=== FILE: README.md ===
# AlloyEditor language build, modelled in Dafny

AlloyEditor ships one generated script per language. Each script sets
`AlloyEditor.Strings` to that language's user-interface strings. The gulp
task `buildLanguages` produces them. It walks the CKEditor language
directory. It skips every file name the whitelist `/^[\w-]+\.js/` rejects.
For each accepted file it:

- derives the language code from the file name;
- loads CKEditor's strings for that language;
- resolves every value of the CKEditor lang content (`getStringLangValue`).
  A dotted value becomes a property path under `CKEDITOR.lang["<lang>"]`;
  any other value is evaluated as it stands;
- when the language has a `<lang>.json` override file, assigns the default
  translations of `language.json` and then the overrides on top;
- writes the whole table, with a header pointing to the hand-edited asset,
  to `src/__generated__/lang/<name>`.

The table is created once, before the walk, and never cleared. A language
therefore starts from whatever the languages before it left.

The model is a set of pure functions.

- Tables are insertion-ordered association lists. The generated text lists
  keys in that order.
- Assignment `t[k] = v` replaces a present key's value in place and appends
  a new key.
- The walk is a fold over the file names in the order the walk reports
  them. It threads the one table, stops at the first error, and returns the
  writes completed so far.
- The files the build reads are given as `Languages.Inputs`:
  - the lang content;
  - `CKEDITOR.lang` as it stands after each CKEditor lang file loads, as a
    tree of objects and strings;
  - the default and override translations;
  - the set of output paths whose write fails.
- Output is the list of `(path, text)` writes.
- `JSON.stringify(table, null, 2)` and the `/^  /gm` tab replacement are
  modelled character by character. JSON string escaping is proved
  invertible by a JSON string decoder.

Modules:

- `Wrappers` holds `Option`, `Result` and `Find`.
- `Strings` holds `indexOf`, `split` and join.
- `StringTable` models object tables and assignment.
- `LangFile` models the whitelist, the language code and the two paths.
- `Resolve` models `getStringLangValue` and resolving the lang content.
- `Serialise` models the generated text.
- `Languages` models the step for one file, the walk and the build.
- `Scenarios` holds worked builds on small inputs.

Two facts about the code shape the model:

- **An exception ends the whole build.** A missing CKEditor lang file
  (`require` at line 57), a value whose evaluation throws (`eval` at line
  24), or a failed write (lines 116-121) ends the whole build, including
  the languages after it. `require` and `eval` throw inside the walker's
  event handler. A write error goes to the `buildLanguages` callback, and
  `next()` is never called.
- **The table carries over between languages.** `AlloyEditor.Strings` is
  created once (lines 34-36) and not reset per language. A language
  without an override file keeps the defaults and overrides an earlier
  language wrote.

## Model

| member | source | states |
|---|---|---|
| Languages.Build | scripts/build/gulp/tasks/languages.js:27-124 | `buildLanguages`: with no `language.json` the build fails with no writes; otherwise it is the walk from an empty table, and it never writes more files than there are names. RunWritesAcceptedNames, RunKeepsKeys and RunIgnoresRejected pin it down |
| Languages.Run | scripts/build/gulp/tasks/languages.js:38-52 | the walk with the real per-file step and the defaults fixed; at most one write per name. RunWritesAcceptedNames and RunKeepsKeys pin it down |
| Languages.WalkFiles | scripts/build/gulp/tasks/languages.js:38-52 | the walk: each name is handled in order, a skipped name writes nothing, and the first error ends the walk (no `next()`, lines 116-121); at most one write per name. WalkWritesAcceptedNames, WalkKeepsKeys and WalkIgnoresRejected pin it down |
| Resolve.ResolveValue | scripts/build/gulp/tasks/languages.js:17-25 | `getStringLangValue`: every failure names the rewritten expression handed to `eval`. ResolveDotted, ResolveLiteral and ResolveDottedIsScoped pin it down |
| Resolve.Rewrite | scripts/build/gulp/tasks/languages.js:18-20 | a dot-free value is left as it is; a dotted one becomes `CKEDITOR.lang["<lang>"].` followed by a path without quotes. ParseRewrite reads the language and path back |
| Resolve.Evaluate | scripts/build/gulp/tasks/languages.js:24 | `eval` of a reference or a dot-free literal: every error carries the evaluated expression, and a success on a non-reference is the literal's string. ResolveDotted and ResolveLiteral pin it down |
| Resolve.ResolveContent | scripts/build/gulp/tasks/languages.js:59-64 | the `forEach` over the lang content: a success has one entry per content entry. ResolveContentSucceeds, ResolveContentValues and ResolveContentFailure pin it down |
| LangFile.Whitelisted | scripts/build/gulp/tasks/languages.js:9 | `/^[\w-]+\.js/.test(name)`: an accepted name starts with a name character and is longer than `.js`. WhitelistedIffPatternMatches relates it to the regular expression |
| LangFile.OutputPath | scripts/build/gulp/tasks/languages.js:101-108 | the generated file keeps the walked name under `src/__generated__/lang/`. OutputPathInjective shows no two names share it |
| LangFile.AssetFile | scripts/build/gulp/tasks/languages.js:88-93 | the header's asset is a `.json` under `src/assets/lang/`. AssetFileNamesCode shows it identifies the language code exactly |
| LangFile.OutputPathInjective | scripts/build/gulp/tasks/languages.js:101-108 | different walked names are written to different files |
| LangFile.AssetFileNamesCode | scripts/build/gulp/tasks/languages.js:88-93 | two names point to the same asset iff they have the same language code |
| LangFile.ExampleSharedAsset | scripts/build/gulp/tasks/languages.js:9 | without an end anchor, the accepted names `a.jsb` and `a.jsb.js` are written to different files but have the same asset path |
| Serialise.Escape | scripts/build/gulp/tasks/languages.js:111 | the contents of a string literal as `JSON.stringify` writes them; UnescapeEscape shows a JSON decoder reads the string back |
| Serialise.Quote | scripts/build/gulp/tasks/languages.js:111 | a string literal as `JSON.stringify` writes it; QuoteRoundTrip pins it down |
| Serialise.QuoteRoundTrip | scripts/build/gulp/tasks/languages.js:111 | a quoted string starts and ends with `"`, and decoding what lies between gives the string back |
| Serialise.Stringify | scripts/build/gulp/tasks/languages.js:111 | `JSON.stringify(table, null, 2)`: the text is an object in braces, `{}` exactly for the empty table. TabIndentStringify and FileTextShape relate it to the tab layout |
| Serialise.LayoutBraces | scripts/build/gulp/tasks/languages.js:111 | every layout is wrapped in braces, and only an empty table lays out as `{}` |
| Serialise.ReplaceIndent | scripts/build/gulp/tasks/languages.js:111-114 | `replace(/^  /gm, '\t')` over the rest of a text, given whether a line starts there. ReplaceIndentShrinks, TabIndentStringify and LineSeparatorInValue pin it down |
| Serialise.ReplaceIndentShrinks | scripts/build/gulp/tasks/languages.js:111-114 | the replacement never lengthens the text, and a text without spaces is unchanged |
| Serialise.TabIndent | scripts/build/gulp/tasks/languages.js:111-114 | the replacement from the start of the text: it never lengthens it, and a text without spaces is unchanged. TabIndentStringify gives its result on a layout |
| Serialise.Header | scripts/build/gulp/tasks/languages.js:88-100 | the header opens with `/**` and closes with `*/` and a blank line; between the fixed text `… See ` and ` instead. …` stands exactly the asset path |
| Serialise.HeaderNamesAsset | scripts/build/gulp/tasks/languages.js:88-100 | two generated files have the same header iff their asset paths are equal, so the header names the asset to edit |
| Serialise.ExampleSharedHeader | scripts/build/gulp/tasks/languages.js:9 | the accepted names `a.jsb` and `a.jsb.js` are written to different files with identical headers, both naming the same asset |
| Serialise.FileText | scripts/build/gulp/tasks/languages.js:109-115 | the written text starts with the header and ends with `;`. FileTextShape gives the whole text |
| LangFile.WhitelistedIffPatternMatches | scripts/build/gulp/tasks/languages.js:9 | a name is accepted exactly when `[\w-]+` matches a non-empty prefix followed by `.js`, with anything allowed after |
| LangFile.NamePrefixLength | scripts/build/gulp/tasks/languages.js:9 | the greedy `[\w-]+` run: every character in it is a name character, and the next one is not |
| LangFile.ScriptNameOf | scripts/build/gulp/tasks/languages.js:48-54 | every `<code>.js` whose code is one or more `[\w-]` characters is accepted, and the language code is that code |
| LangFile.LangCode | scripts/build/gulp/tasks/languages.js:54 | `basename(name, '.js')`: a name ending in `.js` is the code plus `.js`; any other name is its own code |
| LangFile.PathsOfScriptName | scripts/build/gulp/tasks/languages.js:88-108 | for a `.js` name, the output keeps the name under the generated directory, and the asset is `src/assets/lang/<code>.json` |
| LangFile.PathsOfOtherName | scripts/build/gulp/tasks/languages.js:88-93 | an accepted name that does not end in `.js` keeps its whole name as the code, so the header points to `<name>.json` |
| LangFile.ExampleJsonName | scripts/build/gulp/tasks/languages.js:9 | without an end anchor, `en.json` is accepted, and its language code is `en.json` |
| LangFile.ExampleRejectedNames | scripts/build/gulp/tasks/languages.js:48-52 | `.js` (empty code) and `en.css` are rejected |
| Resolve.StripQuotes | scripts/build/gulp/tasks/languages.js:19 | `replace(/"/g, '')`: the result has no `"`, every other character keeps its count, and a quote-free value is unchanged |
| Resolve.StripQuotesChar | scripts/build/gulp/tasks/languages.js:19 | on one character, a `"` is removed and any other character is kept |
| Resolve.StripQuotesAppend | scripts/build/gulp/tasks/languages.js:19 | removing quotes from `a + b` is removing them from `a` and from `b` and joining the results, so the kept characters keep their order |
| Resolve.ParseRewrite | scripts/build/gulp/tasks/languages.js:18-19 | the rewritten expression of a dotted value refers to the current language, and its path is the value without its quotes |
| Resolve.ResolveDotted | scripts/build/gulp/tasks/languages.js:17-24 | a dotted value resolves iff walking the language's object along the pieces of the value ends on a string, and the result is that string |
| Resolve.ResolveDottedIsScoped | scripts/build/gulp/tasks/languages.js:19-24 | a dotted value depends only on the current language's subtree of `CKEDITOR.lang` |
| Resolve.ResolveLiteral | scripts/build/gulp/tasks/languages.js:18-24 | a value without a dot is evaluated unchanged: its literal meaning if it has one, otherwise an evaluation error |
| Resolve.ResolveContentSucceeds | scripts/build/gulp/tasks/languages.js:59-64 | resolving the lang content succeeds iff every value resolves |
| Resolve.ResolveContentValues | scripts/build/gulp/tasks/languages.js:59-64 | on success, every key keeps its place and is bound to its own value's resolution |
| Resolve.ResolveContentFailure | scripts/build/gulp/tasks/languages.js:59-64 | on failure, the error is the one from the first value that does not resolve, and every value before it resolves |
| Resolve.ResolveContentKeepsDistinct | scripts/build/gulp/tasks/languages.js:59-64 | resolving keeps the keys, so the result is still a table with unique keys |
| StringTable.Get | scripts/build/gulp/tasks/languages.js:82-84 | a key has a value iff it is one of the table's keys, and that value is bound to the key in the table |
| StringTable.GetAt | scripts/build/gulp/tasks/languages.js:78-84 | in a table with unique keys, reading the key of any entry gives that entry's value |
| StringTable.Set | scripts/build/gulp/tasks/languages.js:60 | object assignment: a present key stays in place, a new key is appended, the key gets the new value, and no other key changes |
| StringTable.SetAll | scripts/build/gulp/tasks/languages.js:78-84 | assigning a table's entries in order: the keys become the old keys followed by the source's new keys in source order (first occurrence), and source values win over earlier ones |
| StringTable.FreshAppend | scripts/build/gulp/tasks/languages.js:78-84 | the new keys of two sources assigned one after the other are those of the first, then those of the second not added yet |
| StringTable.SetAllKeepsEarlierKeys | scripts/build/gulp/tasks/languages.js:78-84 | assignments never drop or move a key that is already present |
| Languages.Merge | scripts/build/gulp/tasks/languages.js:59-85 | each key ends with the override, else (with an override file) the default, else the resolved source value, else its earlier value; the keys are the old keys followed by the new ones in the order source, defaults, overrides |
| Languages.Step | scripts/build/gulp/tasks/languages.js:47-122 | a file is skipped iff the whitelist rejects it; a file that emits writes to its own name under the generated directory and keeps every earlier key in place |
| Languages.StepEmits | scripts/build/gulp/tasks/languages.js:101-115 | an accepted, loadable file whose values resolve and whose write succeeds emits the header, the assignment and the layout of its new table |
| Languages.StepFailures | scripts/build/gulp/tasks/languages.js:54-119 | an accepted file fails with a missing lang file, with the first evaluation error, or with a failed write, in that order of checking; otherwise it emits |
| Languages.StepSourceValues | scripts/build/gulp/tasks/languages.js:59-64 | after a step, each content key holds its value resolved for the file's language, unless an override file replaced it |
| Languages.StepOverridePrecedence | scripts/build/gulp/tasks/languages.js:77-85 | with an override file, overrides win, non-overridden default keys hold the default, and every default key is present |
| Languages.StepCarriesOver | scripts/build/gulp/tasks/languages.js:77-85 | without an override file, a key outside the lang content keeps the value an earlier language left |
| Languages.StepKeys | scripts/build/gulp/tasks/languages.js:59-85 | the step adds exactly the content keys and, with an override file, the default and override keys |
| Languages.WalkWritesAcceptedNames | scripts/build/gulp/tasks/languages.js:47-122 | for a handler that writes each accepted name to its own path, the walk writes accepted names in order: a prefix on error, all of them otherwise |
| Languages.WalkKeepsKeys | scripts/build/gulp/tasks/languages.js:47-122 | for a handler that only grows the table, the walk keeps every earlier key in place and keeps keys unique |
| Languages.WalkIgnoresRejected | scripts/build/gulp/tasks/languages.js:48-52 | for a handler that skips rejected names, walking all names equals walking only the accepted ones |
| Languages.RunWritesAcceptedNames | scripts/build/gulp/tasks/languages.js:47-122 | the build writes exactly one file per accepted name, in walk order; a build that stops has written a prefix of them |
| Languages.RunKeepsKeys | scripts/build/gulp/tasks/languages.js:34-36 | the table is never cleared: keys present before the walk remain at its end, in place, and unique |
| Languages.RunIgnoresRejected | scripts/build/gulp/tasks/languages.js:48-52 | rejected names have no effect at all on the build's writes, table or error |
| Languages.CarryOverToNextLanguage | scripts/build/gulp/tasks/languages.js:29-85 | after a language with an override file, the next language without one still writes the earlier defaults and overrides for keys outside the lang content |
| Serialise.UnescapeEscape | scripts/build/gulp/tasks/languages.js:111 | a JSON string decoder reads back exactly the string `JSON.stringify` quoted |
| Serialise.TabIndentStringify | scripts/build/gulp/tasks/languages.js:111-114 | unless a key or value holds U+2028 or U+2029, replacing `/^  /gm` with a tab gives exactly the tab-indented layout |
| Serialise.LineSeparatorInValue | scripts/build/gulp/tasks/languages.js:111-114 | a value holding U+2028 followed by two spaces has those spaces replaced too, so the output is not the tab-indented layout |
| Serialise.FileTextShape | scripts/build/gulp/tasks/languages.js:94-115 | when no key or value holds U+2028 or U+2029, the written text is the header naming the asset, `AlloyEditor.Strings = `, the tab-indented layout and `;` |
| Scenarios.ResolvesTwo | scripts/build/gulp/tasks/languages.js:17-24 | `<a>.<b>` resolves to the language's `msgs.hi` string for `msgs.hi`, and otherwise fails as a missing property of the rewritten expression |
| Scenarios.MissingFails | scripts/build/gulp/tasks/languages.js:17-24 | `nope.hi` fails: `nope` is not a property of the language's object, so reading `hi` of it throws |
| Scenarios.MergeWithOverride | scripts/build/gulp/tasks/languages.js:77-85 | with an override file, the override replaces the source value in place, and the default key is appended after it |
| Scenarios.BuildWithOverride | scripts/build/gulp/tasks/languages.js:27-122 | a one-language build with an override file writes `{g: override, f: default}` |
| Scenarios.BuildWithoutOverride | scripts/build/gulp/tasks/languages.js:66-85 | without an override file, the defaults do not appear: the file holds only the resolved source value |
| Scenarios.BuildCarriesOver | scripts/build/gulp/tasks/languages.js:29-122 | after a language with an override file, the next language's file still holds the earlier default next to its own resolved value |
| Scenarios.BuildStopsOnMissingProperty | scripts/build/gulp/tasks/languages.js:17-64 | a value whose path runs through a missing object ends the build at the first language, with nothing written |
| Scenarios.BuildWithoutDefaults | scripts/build/gulp/tasks/languages.js:41-44 | without `language.json`, the build fails before any file |

## Left out

- The directory walk: its order, its `file`/`end` events and the `next()` callback protocol. File names are an input sequence in walk order.
- Reading files with `require` and writing them with `fs.writeFile`. The build's reads are inputs; a failed write is an input set of unwritable paths. Filesystem contents after the build are not modelled.
- The global `CKEDITOR.lang` accumulating across `require` calls. `Languages.Inputs.lib` gives, per file name, the tree as it stands after that file loads.
- The global `AlloyEditor` mock (line 34-36) beyond the one `Strings` table.
- `console.log` when an override file is missing.
- `copyLanguages` and the `languages:copy` gulp task: these copy files with gulp and hold no logic.
- `Constants` (directory paths and `ckeditorLangContent`): the lang content is an input, and the paths are the relative constants the code joins.
- General `eval`. Only two value shapes are modelled:
  - a rewritten property path whose pieces are identifier names;
  - a dot-free expression whose string value is given by a table of literals.
  Everything else is an evaluation error.
- Resolve.ParseRef: rejects a language code containing `"` or `\`, which a real `eval` might still accept.
- Resolve.Walk: follows own properties only, not prototype properties.
- Resolve.Evaluate: treats a path that ends on a non-string value as an error, not a non-string value placed in the table.
- Resolve.ResolveDotted: a path whose last property is missing, or that reads a property a string does not have, is an error in the model. In JavaScript `eval` returns `undefined` for such a path instead of throwing. The key is then stored with `undefined`, `JSON.stringify` leaves it out, and the build goes on. The model keeps table values as strings, so it cannot hold `undefined`. Only a path through a missing object throws a TypeError in the source as in the model. A property a string does have (`length`, `charAt`) gives a non-string, as the Resolve.Evaluate line says.
- Resolve.ResolveLiteral: `eval` at line 24 is a direct call, so a dot-free value also sees the locals of `getStringLangValue`. The value `lang` evaluates to the language code and `value` to the value itself. The model's `literals` table is the same for every language and does not cover these names.
- Scenarios.ResolvesTwo: for `msgs.<b>` with `b` other than `hi` it states the model's missing-property error, where the source yields `undefined` as described on the Resolve.ResolveDotted line.
- Scenarios.BuildStopsOnMissingProperty: uses `nope.hi`, which throws in the source too. A missing last property such as `msgs.missing` would not stop the source build.
- StringTable.Set: models assignment to an ordinary own property. Assigning the key `__proto__` (lines 60, 79, 83) calls the inherited setter instead. That setter ignores a string, so no key is added, whereas the model appends `__proto__` and writes it. A translation file parsed by `JSON.parse` can carry such a key.
- StringTable.Set: strings are sequences of Dafny characters, not UTF-16 code units, so a lone surrogate such as one from `\uD800` in a translation file has no counterpart in the model.
- Key order for integer-like keys, which JavaScript objects list first in ascending order. The model keeps plain insertion order.
- LangFile.LangCode: models `path.basename` only for names without `/`, which is all a directory walk reports.
- Non-string JSON values in translation files, and an override file whose contents are falsy. Overrides are tables of strings, present exactly when the file loads.
- Serialise.Unescape: does not decode surrogate pairs, so it rejects `\uD800`–`\uDFFF` escapes, which `JSON.stringify` does not produce for well-formed strings.
- The Scenarios lemmas: each fixes small inputs (one content key, one default key) and leaves keys and strings free.

=== FILE: lang_file.dfy ===
/**
 * File names in the CKEditor language directory: which ones the build
 * accepts, the language code it derives from a name, and the two paths it
 * names for that file (the generated script and the hand-edited asset).
 * Names are leaf names as a directory walk reports them, without `/`.
 */
module LangFile {
  import opened Strings

  /** `\w` of a JavaScript regular expression without the `u` flag. */
  predicate IsWordChar(c: char) {
    'a' <= c <= 'z' || 'A' <= c <= 'Z' || '0' <= c <= '9' || c == '_'
  }

  /** The character class `[\w-]` of the whitelist. */
  predicate IsNameChar(c: char) {
    IsWordChar(c) || c == '-'
  }

  const Extension := ".js"

  /** Length of the longest prefix of `s` made of `[\w-]` characters. */
  function NamePrefixLength(s: string): (n: nat)
    ensures n <= |s|
    ensures forall i :: 0 <= i < n ==> IsNameChar(s[i])
    ensures n < |s| ==> !IsNameChar(s[n])
  {
    if |s| == 0 || !IsNameChar(s[0]) then 0
    else 1 + NamePrefixLength(s[1..])
  }

  /**
   * The whitelist test `/^[\w-]+\.js/`.  Since `.` is not a name character
   * the greedy `[\w-]+` cannot give any characters back, so the pattern
   * matches exactly when the longest name prefix is non-empty and `.js`
   * follows it.  There is no end anchor: anything may follow `.js`.
   */
  predicate Whitelisted(name: string)
    ensures Whitelisted(name) ==> |name| > |Extension| && IsNameChar(name[0])
  {
    var n := NamePrefixLength(name);
    n >= 1 && StartsWith(name[n..], Extension)
  }

  /** The pattern matches with `[\w-]+` covering `name[..k]`. */
  ghost predicate MatchesWith(name: string, k: int) {
    && 1 <= k && k + |Extension| <= |name|
    && (forall i :: 0 <= i < k ==> IsNameChar(name[i]))
    && name[k..k + |Extension|] == Extension
  }

  /** The whitelist accepts a name iff the anchored pattern matches it for some split point. */
  lemma WhitelistedIffPatternMatches(name: string)
    ensures Whitelisted(name) <==> exists k :: MatchesWith(name, k)
  {
    var n := NamePrefixLength(name);
    if Whitelisted(name) {
      assert name[n..][..|Extension|] == name[n..n + |Extension|];
      assert MatchesWith(name, n);
    }
    if k :| MatchesWith(name, k) {
      assert name[k] == '.';
      assert n == k;
      assert name[n..][..|Extension|] == name[n..n + |Extension|];
    }
  }

  /**
   * `path.basename(name, '.js')` for a name without `/`: one trailing `.js`
   * is removed, and a name that does not end in `.js` is returned unchanged.
   */
  function LangCode(name: string): (lang: string)
    ensures EndsWith(name, Extension) ==> lang + Extension == name
    ensures !EndsWith(name, Extension) ==> lang == name
  {
    if EndsWith(name, Extension) then name[..|name| - |Extension|] else name
  }

  const GeneratedDir := "src/__generated__/lang/"
  const AssetDir := "src/assets/lang/"

  /** Where the generated script for `name` is written, relative to the repository root. */
  function OutputPath(name: string): (r: string)
    ensures StartsWith(r, GeneratedDir) && |r| == |GeneratedDir| + |name|
  {
    GeneratedDir + name
  }

  /** The hand-edited asset that the generated file's header points to. */
  function AssetFile(name: string): (r: string)
    ensures StartsWith(r, AssetDir) && EndsWith(r, ".json")
  {
    AssetDir + LangCode(name) + ".json"
  }

  /** Each file name is written to a path of its own: no two names share an output file. */
  lemma OutputPathInjective(a: string, b: string)
    requires OutputPath(a) == OutputPath(b)
    ensures a == b
  {
  }

  /** The asset path names the language: two names point to the same asset iff they have the same code. */
  lemma AssetFileNamesCode(a: string, b: string)
    ensures AssetFile(a) == AssetFile(b) <==> LangCode(a) == LangCode(b)
  {
    if AssetFile(a) == AssetFile(b) {
      var ra := AssetFile(a);
      assert LangCode(a) == ra[|AssetDir|..|ra| - 5];
      assert LangCode(b) == AssetFile(b)[|AssetDir|..|AssetFile(b)| - 5];
    }
  }

  /**
   * For a `.js` name both paths are built from the language code: the
   * output keeps the name, the asset swaps `.js` for `.json`.
   */
  lemma PathsOfScriptName(name: string)
    requires EndsWith(name, Extension)
    ensures OutputPath(name) == GeneratedDir + LangCode(name) + ".js"
    ensures AssetFile(name) == AssetDir + LangCode(name) + ".json"
  {
  }

  /** A whitelisted name that only starts with `<code>.js` keeps its whole name as the language code. */
  lemma PathsOfOtherName(name: string)
    requires Whitelisted(name) && !EndsWith(name, Extension)
    ensures LangCode(name) == name
    ensures |LangCode(name)| > |Extension|
    ensures AssetFile(name) == AssetDir + name + ".json"
  {
    var n := NamePrefixLength(name);
    assert |name| >= n + |Extension|;
  }

  /** The longest name prefix stops exactly where a non-name character (or the end) follows `code`. */
  lemma {:induction false} NamePrefixLengthOf(code: string, rest: string)
    requires forall i :: 0 <= i < |code| ==> IsNameChar(code[i])
    requires |rest| == 0 || !IsNameChar(rest[0])
    ensures NamePrefixLength(code + rest) == |code|
  {
    if |code| > 0 {
      assert (code + rest)[0] == code[0];
      assert (code + rest)[1..] == code[1..] + rest;
      NamePrefixLengthOf(code[1..], rest);
    } else {
      assert code + rest == rest;
    }
  }

  /** Every `<code>.js` whose code is one or more `[\w-]` characters is accepted and yields that code. */
  lemma ScriptNameOf(code: string)
    requires |code| >= 1 && forall i :: 0 <= i < |code| ==> IsNameChar(code[i])
    ensures Whitelisted(code + Extension) && LangCode(code + Extension) == code
  {
    var name := code + Extension;
    NamePrefixLengthOf(code, Extension);
    assert name[|code|..] == Extension;
    assert name[..|name| - |Extension|] == code;
  }

  lemma ExampleScriptName()
    ensures Whitelisted("pt-br.js") && LangCode("pt-br.js") == "pt-br"
  {
    ScriptNameOf("pt-br");
    assert "pt-br" + Extension == "pt-br.js";
  }

  /** Without an end anchor the whitelist also lets `en.json` through, unchanged by `LangCode`. */
  lemma ExampleJsonName()
    ensures Whitelisted("en.json") && LangCode("en.json") == "en.json"
  {
    assert NamePrefixLength("en.json") == 2 by {
      var s := "en.json";
      assert NamePrefixLength(s[2..]) == 0;
      assert s[1..][1..] == s[2..];
    }
    assert "en.json"[2..][..3] == ".js";
  }

  /**
   * Two accepted names can share an asset: `a.jsb` keeps its whole name as
   * the code, and `a.jsb.js` loses only its `.js`.
   */
  lemma ExampleSharedAsset()
    ensures Whitelisted("a.jsb") && Whitelisted("a.jsb.js")
    ensures OutputPath("a.jsb") != OutputPath("a.jsb.js")
    ensures AssetFile("a.jsb") == AssetFile("a.jsb.js")
  {
    assert NamePrefixLength("a.jsb") == 1 by {
      assert NamePrefixLength("a.jsb"[1..]) == 0;
    }
    assert NamePrefixLength("a.jsb.js") == 1 by {
      assert NamePrefixLength("a.jsb.js"[1..]) == 0;
    }
    assert "a.jsb"[1..][..3] == ".js";
    assert "a.jsb.js"[1..][..3] == ".js";
    assert !EndsWith("a.jsb", Extension) by {
      assert "a.jsb"[2..] == "jsb";
    }
    assert "a.jsb.js"[..5] == "a.jsb";
    assert |OutputPath("a.jsb")| != |OutputPath("a.jsb.js")|;
  }

  lemma ExampleRejectedNames()
    ensures !Whitelisted(".js")
    ensures !Whitelisted("en.css")
  {
    assert NamePrefixLength(".js") == 0;
    assert NamePrefixLength("en.css") == 2 by {
      var s := "en.css";
      assert NamePrefixLength(s[2..]) == 0;
      assert s[1..][1..] == s[2..];
    }
    assert "en.css"[2..][..3] == ".cs";
  }
}

=== FILE: languages.dfy ===
/**
 * The language build: a fold over the file names of the CKEditor language
 * directory, in the order the walk reports them, threading the one
 * `AlloyEditor.Strings` table that the build creates at its start and never
 * clears.  Each accepted file resolves the CKEditor lang content for its
 * language into the table, merges the default and override translations
 * when the language has an override file, and writes the whole table.
 *
 * What the build reads is given as `Inputs`; what it writes is returned as
 * the sequence of `(path, text)` writes it completes, in order.
 */
module Languages {
  import opened Wrappers
  import opened StringTable
  import opened LangFile
  import Resolve
  import Serialise

  datatype Error =
    /** `language.json` could not be loaded; nothing is processed. */
    | MissingDefaults
    /** `lib/lang/<name>` could not be loaded. */
    | MissingLibFile(name: string)
    /** A value of the lang content did not evaluate for the language of `name`. */
    | Unresolved(name: string, cause: Resolve.EvalError)
    /** Writing the generated file failed; the build stops with this error. */
    | WriteFailed(path: string)

  datatype Write = Write(path: string, text: string)

  datatype Inputs = Inputs(
    /** The CKEditor lang content: key to value, literal or dotted path. */
    content: Table,
    /** `CKEDITOR.lang` as it stands once `lib/lang/<name>` is loaded, by file name. */
    lib: map<string, Resolve.Node>,
    /** The dot-free values that evaluate to a string, with that string. */
    literals: map<string, string>,
    /** The default translations of `language.json`, if it loads. */
    defaults: Option<Table>,
    /** The translations of `<lang>.json`, for the languages whose file loads. */
    overrides: map<string, Table>,
    /** Output paths whose write fails. */
    unwritable: set<string>)

  /** The value a key ends with after one merge: override, then default, then source, then the table before. */
  function Precedence(strings: seq<Entry>, resolved: seq<Entry>, defaults: seq<Entry>, overrides: Option<Table>, k: string): (r: Option<string>) {
    if overrides.Some? && k in Keys(overrides.value) then Get(overrides.value, k)
    else if overrides.Some? && k in Keys(defaults) then Get(defaults, k)
    else if k in Keys(resolved) then Get(resolved, k)
    else Get(strings, k)
  }

  /**
   * Assigns the resolved source values into the table, then, only when an
   * override table was loaded, the defaults and the overrides on top.
   */
  function Merge(strings: seq<Entry>, resolved: seq<Entry>, defaults: Table, overrides: Option<Table>): (r: seq<Entry>)
    requires Distinct(resolved)
    ensures forall k :: Get(r, k) == Precedence(strings, resolved, defaults, overrides, k)
    ensures Keys(r) == Keys(strings) + Fresh(Keys(strings), Keys(resolved) + MergedKeys(defaults, overrides))
    ensures |strings| <= |r| && Keys(r)[..|strings|] == Keys(strings)
    ensures forall k :: k in Keys(r) <==>
      || k in Keys(strings) || k in Keys(resolved)
      || (overrides.Some? && (k in Keys(defaults) || k in Keys(overrides.value)))
    ensures Distinct(strings) ==> Distinct(r)
  {
    var sourced := SetAll(strings, resolved);
    match overrides
    case None =>
      assert Keys(resolved) + [] == Keys(resolved);
      sourced
    case Some(o) =>
      MergeOverrides(strings, resolved, defaults, o);
      var withDefaults := SetAll(sourced, defaults);
      FreshThree(Keys(strings), Keys(resolved), Keys(defaults), Keys(o));
      SetAll(withDefaults, o)
  }

  /** The keys the override branch assigns after the source values: the defaults, then the overrides. */
  function MergedKeys(defaults: Table, overrides: Option<Table>): seq<string> {
    match overrides
    case None => []
    case Some(o) => Keys(defaults) + Keys(o)
  }

  /** Three assignments in a row append the new keys of all three sources, in order. */
  lemma FreshThree(ks: seq<string>, ka: seq<string>, kd: seq<string>, ko: seq<string>)
    ensures var k1 := ks + Fresh(ks, ka);
      var k2 := k1 + Fresh(k1, kd);
      k2 + Fresh(k2, ko) == ks + Fresh(ks, ka + (kd + ko))
  {
    var k1 := ks + Fresh(ks, ka);
    FreshAppend(ks, ka, kd + ko);
    FreshAppend(k1, kd, ko);
  }

  /** The override branch of `Merge`: defaults, then overrides, on top of the source values. */
  lemma MergeOverrides(strings: seq<Entry>, resolved: seq<Entry>, defaults: Table, o: Table)
    requires Distinct(resolved)
    ensures var r := SetAll(SetAll(SetAll(strings, resolved), defaults), o);
      && (forall k :: Get(r, k) == Precedence(strings, resolved, defaults, Some(o), k))
      && |strings| <= |r| && Keys(r)[..|strings|] == Keys(strings)
      && (forall k :: k in Keys(r) <==> k in Keys(strings) || k in Keys(resolved) || k in Keys(defaults) || k in Keys(o))
      && (Distinct(strings) ==> Distinct(r))
  {
    var sourced := SetAll(strings, resolved);
    var withDefaults := SetAll(sourced, defaults);
    var r := SetAll(withDefaults, o);
    forall k ensures Get(r, k) == Precedence(strings, resolved, defaults, Some(o), k) {
      MergeOverridesGet(strings, resolved, defaults, o, k);
    }
    PrefixOfPrefix(Keys(r), Keys(withDefaults), Keys(sourced), Keys(strings));
  }

  lemma MergeOverridesGet(strings: seq<Entry>, resolved: seq<Entry>, defaults: Table, o: Table, k: string)
    requires Distinct(resolved)
    ensures Get(SetAll(SetAll(SetAll(strings, resolved), defaults), o), k) == Precedence(strings, resolved, defaults, Some(o), k)
  {
  }

  lemma PrefixOfPrefix(a: seq<string>, b: seq<string>, c: seq<string>, d: seq<string>)
    requires |d| <= |c| <= |b| <= |a|
    requires a[..|b|] == b && b[..|c|] == c && c[..|d|] == d
    ensures a[..|d|] == d
  {
    assert a[..|d|] == a[..|b|][..|c|][..|d|];
  }

  /** What one file does to the build: nothing, or a new table and the write of it. */
  datatype Processed = Skipped | Emitted(strings: seq<Entry>, write: Write)

  /**
   * The body of the walk's `file` handler for the file `name`.  A rejected
   * name is skipped and only a rejected name is; a file that is processed
   * writes to its own name under the generated directory, and the table
   * keeps every key it had, in place.
   */
  function Step(strings: seq<Entry>, defaults: Table, name: string, inp: Inputs): (r: Result<Processed, Error>)
    ensures r == Success(Skipped) <==> !Whitelisted(name)
    ensures r.Success? && r.value.Emitted? ==>
      && r.value.write.path == GeneratedDir + name
      && |strings| <= |r.value.strings| && Keys(r.value.strings)[..|strings|] == Keys(strings)
      && (Distinct(strings) ==> Distinct(r.value.strings))
  {
    if !Whitelisted(name) then Success(Skipped)
    else if name !in inp.lib then Failure(MissingLibFile(name))
    else
      var lang := LangCode(name);
      match Resolve.ResolveContent(inp.content, Resolve.ResolverFor(lang, inp.lib[name], inp.literals))
      case Failure(e) => Failure(Unresolved(name, e))
      case Success(resolved) =>
        Resolve.ResolveContentKeepsDistinct(inp.content, Resolve.ResolverFor(lang, inp.lib[name], inp.literals));
        var merged := Merge(strings, resolved, defaults, Find(inp.overrides, lang));
        var path := OutputPath(name);
        if path in inp.unwritable then Failure(WriteFailed(path))
        else Success(Emitted(merged, Write(path, Serialise.FileText(name, merged))))
  }

  /**
   * The writes completed, the table, and the error that stopped the build,
   * if any. After an error the table is the one from before the failing
   * file; nothing reads it then.
   */
  datatype Outcome = Outcome(writes: seq<Write>, strings: seq<Entry>, failure: Option<Error>)

  /** The handler the walk calls for each file name, with the table the build holds so far. */
  type Handler = (seq<Entry>, string) -> Result<Processed, Error>

  /** `Step` with the build's defaults and inputs fixed. */
  function HandlerOf(defaults: Table, inp: Inputs): Handler {
    (strings, name) => Step(strings, defaults, name, inp)
  }

  /** The walk: calls `handle` on `names` one after another; the first error ends it. */
  function WalkFiles(handle: Handler, strings: seq<Entry>, names: seq<string>): (r: Outcome)
    ensures |r.writes| <= |names|
    decreases |names|
  {
    if |names| == 0 then Outcome([], strings, None)
    else
      match handle(strings, names[0])
      case Failure(e) => Outcome([], strings, Some(e))
      case Success(Skipped) => WalkFiles(handle, strings, names[1..])
      case Success(Emitted(s, w)) =>
        var rest := WalkFiles(handle, s, names[1..]);
        Outcome([w] + rest.writes, rest.strings, rest.failure)
  }

  /** Processes `names` one after another with `Step`; the first error ends the build. */
  function Run(strings: seq<Entry>, defaults: Table, names: seq<string>, inp: Inputs): (r: Outcome)
    ensures |r.writes| <= |names|
  {
    WalkFiles(HandlerOf(defaults, inp), strings, names)
  }

  /** `buildLanguages`: load the defaults, then walk the names with an empty table. */
  function Build(names: seq<string>, inp: Inputs): (r: Outcome)
    ensures |r.writes| <= |names|
    ensures inp.defaults.None? ==> r.writes == [] && r.failure == Some(MissingDefaults)
  {
    match inp.defaults
    case None => Outcome([], [], Some(MissingDefaults))
    case Some(d) => Run([], d, names, inp)
  }

  // ---------------------------------------------------------------------
  // One file

  /**
   * An accepted file whose values all resolve and whose output can be
   * written produces exactly one write, to the same name under the
   * generated directory, of the text for the new table.
   */
  lemma StepEmits(strings: seq<Entry>, defaults: Table, name: string, inp: Inputs)
    requires Whitelisted(name) && name in inp.lib && OutputPath(name) !in inp.unwritable
    requires Resolve.ResolveContent(inp.content, Resolve.ResolverFor(LangCode(name), inp.lib[name], inp.literals)).Success?
    ensures var r := Step(strings, defaults, name, inp);
      && r.Success? && r.value.Emitted?
      && r.value.write == Write(GeneratedDir + name, Serialise.FileText(name, r.value.strings))
  {
  }

  /**
   * The three ways an accepted file stops the build: its CKEditor lang
   * file is missing, a value does not evaluate (the first such error is
   * reported), or the write fails; otherwise the file emits.
   */
  lemma StepFailures(strings: seq<Entry>, defaults: Table, name: string, inp: Inputs)
    requires Whitelisted(name)
    ensures var r := Step(strings, defaults, name, inp);
      && (name !in inp.lib ==> r == Failure(MissingLibFile(name)))
      && (name in inp.lib ==>
            var res := Resolve.ResolveContent(inp.content, Resolve.ResolverFor(LangCode(name), inp.lib[name], inp.literals));
            && (res.Failure? ==> r == Failure(Unresolved(name, res.error)))
            && (res.Success? && OutputPath(name) in inp.unwritable ==> r == Failure(WriteFailed(OutputPath(name))))
            && (res.Success? && OutputPath(name) !in inp.unwritable ==> r.Success? && r.value.Emitted?))
  {
  }

  /**
   * After an accepted file, every key of the lang content holds its value
   * resolved for the file's language, unless an override table was loaded
   * and the key is a default or override key.
   */
  lemma StepSourceValues(strings: seq<Entry>, defaults: Table, name: string, inp: Inputs, i: int)
    requires Step(strings, defaults, name, inp).Success? && Step(strings, defaults, name, inp).value.Emitted?
    requires 0 <= i < |inp.content|
    ensures var lang := LangCode(name);
      var k := inp.content[i].key;
      var s := Step(strings, defaults, name, inp).value.strings;
      var o := Find(inp.overrides, lang);
      !(o.Some? && (k in Keys(defaults) || k in Keys(o.value))) ==>
        Get(s, k).Some? &&
        Resolve.ResolveValue(inp.content[i].value, lang, inp.lib[name], inp.literals) == Success(Get(s, k).value)
  {
    var lang := LangCode(name);
    var ns := inp.lib[name];
    Resolve.ResolveContentValues(inp.content, Resolve.ResolverFor(lang, ns, inp.literals));
    var resolved := Resolve.ResolveContent(inp.content, Resolve.ResolverFor(lang, ns, inp.literals)).value;
    assert resolved[i].key == inp.content[i].key by {
      assert Keys(resolved)[i] == Keys(inp.content)[i];
    }
    GetAt(resolved, i);
  }

  /**
   * When the language has an override table, every default key is in the
   * new table; a key in the override table holds the override value, and a
   * default key that is not overridden holds the default value.
   */
  lemma StepOverridePrecedence(strings: seq<Entry>, defaults: Table, name: string, inp: Inputs, k: string)
    requires Step(strings, defaults, name, inp).Success? && Step(strings, defaults, name, inp).value.Emitted?
    requires LangCode(name) in inp.overrides
    ensures var o := inp.overrides[LangCode(name)];
      var s := Step(strings, defaults, name, inp).value.strings;
      && (k in Keys(defaults) ==> k in Keys(s))
      && (k in Keys(o) ==> Get(s, k) == Get(o, k))
      && (k in Keys(defaults) && k !in Keys(o) ==> Get(s, k) == Get(defaults, k))
  {
  }

  /**
   * Without an override table, no default or override entry is written:
   * a key outside the lang content keeps whatever an earlier language left.
   */
  lemma StepCarriesOver(strings: seq<Entry>, defaults: Table, name: string, inp: Inputs, k: string)
    requires Step(strings, defaults, name, inp).Success? && Step(strings, defaults, name, inp).value.Emitted?
    requires LangCode(name) !in inp.overrides
    requires k !in Keys(inp.content)
    ensures Get(Step(strings, defaults, name, inp).value.strings, k) == Get(strings, k)
  {
    var lang := LangCode(name);
    Resolve.ResolveContentValues(inp.content, Resolve.ResolverFor(lang, inp.lib[name], inp.literals));
  }

  /**
   * A step that emits adds exactly the content keys and, with an override
   * table, the default and override keys.
   */
  lemma StepKeys(strings: seq<Entry>, defaults: Table, name: string, inp: Inputs)
    requires Step(strings, defaults, name, inp).Success? && Step(strings, defaults, name, inp).value.Emitted?
    ensures var s := Step(strings, defaults, name, inp).value.strings;
      var o := Find(inp.overrides, LangCode(name));
      forall k :: k in Keys(s) <==>
        || k in Keys(strings) || k in Keys(inp.content)
        || (o.Some? && (k in Keys(defaults) || k in Keys(o.value)))
  {
    Resolve.ResolveContentValues(inp.content, Resolve.ResolverFor(LangCode(name), inp.lib[name], inp.literals));
  }

  // ---------------------------------------------------------------------
  // The whole walk

  /** The names the whitelist accepts, in walk order. */
  function Accepted(names: seq<string>): (r: seq<string>)
    ensures forall i :: 0 <= i < |r| ==> Whitelisted(r[i]) && r[i] in names
    ensures |r| <= |names|
  {
    if |names| == 0 then []
    else if Whitelisted(names[0]) then [names[0]] + Accepted(names[1..])
    else Accepted(names[1..])
  }

  function Paths(writes: seq<Write>): (r: seq<string>)
    ensures |r| == |writes| && forall i :: 0 <= i < |writes| ==> r[i] == writes[i].path
  {
    if |writes| == 0 then [] else [writes[0].path] + Paths(writes[1..])
  }

  function OutputPaths(names: seq<string>): (r: seq<string>)
    ensures |r| == |names| && forall i :: 0 <= i < |names| ==> r[i] == OutputPath(names[i])
  {
    if |names| == 0 then [] else [OutputPath(names[0])] + OutputPaths(names[1..])
  }

  /** A handler result that skips exactly the rejected names and writes `name` under the generated directory. */
  predicate WritesOwnPath(name: string, p: Result<Processed, Error>) {
    && (p == Success(Skipped) <==> !Whitelisted(name))
    && (p.Success? && p.value.Emitted? ==> p.value.write.path == OutputPath(name))
  }

  /** A handler result whose table keeps every key of `before`, in place, and keeps keys unique. */
  predicate KeepsKeys(before: seq<Entry>, p: Result<Processed, Error>) {
    p.Success? && p.value.Emitted? ==>
      && |before| <= |p.value.strings| && Keys(p.value.strings)[..|before|] == Keys(before)
      && (Distinct(before) ==> Distinct(p.value.strings))
  }

  /**
   * With a handler that writes each accepted name to its own path, files
   * are written one per accepted name, in walk order: a walk that stops has
   * written a prefix of them, and a walk without an error all of them.
   */
  lemma {:induction false} WalkWritesAcceptedNames(handle: Handler, strings: seq<Entry>, names: seq<string>)
    requires forall s, n :: WritesOwnPath(n, handle(s, n))
    ensures var out := WalkFiles(handle, strings, names);
      var expected := OutputPaths(Accepted(names));
      && |out.writes| <= |expected| && Paths(out.writes) == expected[..|out.writes|]
      && (out.failure.None? ==> Paths(out.writes) == expected)
    decreases |names|
  {
    if |names| > 0 {
      var rest := names[1..];
      assert WritesOwnPath(names[0], handle(strings, names[0]));
      match handle(strings, names[0])
      case Failure(_) =>
      case Success(Skipped) =>
        WalkWritesAcceptedNames(handle, strings, rest);
      case Success(Emitted(s, w)) =>
        WalkWritesAcceptedNames(handle, s, rest);
        var tail := WalkFiles(handle, s, rest);
        assert Accepted(names) == [names[0]] + Accepted(rest);
        assert OutputPaths(Accepted(names)) == [OutputPath(names[0])] + OutputPaths(Accepted(rest));
        assert Paths([w] + tail.writes) == [w.path] + Paths(tail.writes) by {
          assert ([w] + tail.writes)[1..] == tail.writes;
        }
    }
  }

  /**
   * With a handler that only grows the table, every key present before the
   * walk is still there at its end, in its place, and keys stay unique.
   */
  lemma {:induction false} WalkKeepsKeys(handle: Handler, strings: seq<Entry>, names: seq<string>)
    requires forall s, n :: KeepsKeys(s, handle(s, n))
    ensures var out := WalkFiles(handle, strings, names).strings;
      && |strings| <= |out| && Keys(out)[..|strings|] == Keys(strings)
      && (Distinct(strings) ==> Distinct(out))
    decreases |names|
  {
    if |names| > 0 {
      assert KeepsKeys(strings, handle(strings, names[0]));
      match handle(strings, names[0])
      case Failure(_) =>
      case Success(Skipped) =>
        WalkKeepsKeys(handle, strings, names[1..]);
      case Success(Emitted(s, w)) =>
        WalkKeepsKeys(handle, s, names[1..]);
        var out := WalkFiles(handle, s, names[1..]).strings;
        assert Keys(out)[..|strings|] == Keys(out)[..|s|][..|strings|];
    }
  }

  /**
   * The build writes one file per accepted name, in walk order: a build
   * that stops has written a prefix of them, and a build without an error
   * has written all of them and nothing else.
   */
  lemma RunWritesAcceptedNames(strings: seq<Entry>, defaults: Table, names: seq<string>, inp: Inputs)
    ensures var out := Run(strings, defaults, names, inp);
      var expected := OutputPaths(Accepted(names));
      && |out.writes| <= |expected| && Paths(out.writes) == expected[..|out.writes|]
      && (out.failure.None? ==> Paths(out.writes) == expected)
  {
    var handle := HandlerOf(defaults, inp);
    forall s, n ensures WritesOwnPath(n, handle(s, n)) {
      var r := Step(s, defaults, n, inp);
    }
    WalkWritesAcceptedNames(handle, strings, names);
  }

  /**
   * The table is created once and never cleared: every key present before
   * the build is still there at its end, in its place, and keys stay unique.
   */
  lemma RunKeepsKeys(strings: seq<Entry>, defaults: Table, names: seq<string>, inp: Inputs)
    ensures var out := Run(strings, defaults, names, inp).strings;
      && |strings| <= |out| && Keys(out)[..|strings|] == Keys(strings)
      && (Distinct(strings) ==> Distinct(out))
  {
    var handle := HandlerOf(defaults, inp);
    forall s, n ensures KeepsKeys(s, handle(s, n)) {
      var r := Step(s, defaults, n, inp);
    }
    WalkKeepsKeys(handle, strings, names);
  }

  /**
   * A handler that skips every rejected name makes those names invisible:
   * walking all names is walking only the accepted ones.
   */
  lemma {:induction false} WalkIgnoresRejected(handle: Handler, strings: seq<Entry>, names: seq<string>)
    requires forall s, n :: !Whitelisted(n) ==> handle(s, n) == Success(Skipped)
    ensures WalkFiles(handle, strings, names) == WalkFiles(handle, strings, Accepted(names))
    decreases |names|
  {
    if |names| > 0 {
      var rest := names[1..];
      if !Whitelisted(names[0]) {
        assert handle(strings, names[0]) == Success(Skipped);
        WalkIgnoresRejected(handle, strings, rest);
      } else {
        var acc := Accepted(names);
        assert acc == [names[0]] + Accepted(rest);
        assert acc[0] == names[0] && acc[1..] == Accepted(rest);
        match handle(strings, names[0])
        case Failure(_) =>
        case Success(Skipped) =>
          WalkIgnoresRejected(handle, strings, rest);
        case Success(Emitted(s, w)) =>
          WalkIgnoresRejected(handle, s, rest);
      }
    }
  }

  /** Names the whitelist rejects have no effect on the build: no write, no error, no change to the table. */
  lemma RunIgnoresRejected(strings: seq<Entry>, defaults: Table, names: seq<string>, inp: Inputs)
    ensures Run(strings, defaults, names, inp) == Run(strings, defaults, Accepted(names), inp)
  {
    var handle := HandlerOf(defaults, inp);
    forall s, n | !Whitelisted(n) ensures handle(s, n) == Success(Skipped) {
      var r := Step(s, defaults, n, inp);
    }
    WalkIgnoresRejected(handle, strings, names);
  }

  /**
   * Carry-over between languages: after a language with an override table,
   * a language without one writes the earlier default and override values
   * for every key outside the lang content.
   */
  lemma CarryOverToNextLanguage(strings: seq<Entry>, defaults: Table, first: string, second: string, inp: Inputs, k: string)
    requires Step(strings, defaults, first, inp).Success? && Step(strings, defaults, first, inp).value.Emitted?
    requires LangCode(first) in inp.overrides
    requires var s1 := Step(strings, defaults, first, inp).value.strings;
      Step(s1, defaults, second, inp).Success? && Step(s1, defaults, second, inp).value.Emitted?
    requires LangCode(second) !in inp.overrides
    requires k !in Keys(inp.content)
    requires k in Keys(defaults) || k in Keys(inp.overrides[LangCode(first)])
    ensures var s1 := Step(strings, defaults, first, inp).value.strings;
      var s2 := Step(s1, defaults, second, inp).value.strings;
      var o := inp.overrides[LangCode(first)];
      Get(s2, k) == if k in Keys(o) then Get(o, k) else Get(defaults, k)
  {
    var s1 := Step(strings, defaults, first, inp).value.strings;
    StepOverridePrecedence(strings, defaults, first, inp, k);
    StepCarriesOver(s1, defaults, second, inp, k);
  }
}

=== FILE: resolve.dfy ===
/**
 * Resolution of the values of the CKEditor lang content.  A value with a
 * dot names a property of the CKEditor language object of the current
 * language: it is rewritten to the expression
 * `CKEDITOR.lang["<lang>"].<value without double quotes>` and evaluated.
 * A value without a dot is evaluated as it stands.
 *
 * Evaluation is modelled for exactly these two shapes and is partial:
 * a property path is walked through the nested language objects and
 * fails when a property is missing, and a dot-free literal is decoded
 * through a given table of the literals that evaluate to strings.
 */
module Resolve {
  import opened Wrappers
  import opened Strings
  import opened StringTable
  import LangFile

  /** A value in the `CKEDITOR.lang` namespace: a string or an object of named properties. */
  datatype Node = Text(text: string) | Object(props: map<string, Node>)

  datatype EvalError =
    /** The expression is not a plain property path the model can evaluate. */
    | SyntaxError(expr: string)
    /** A dot-free literal that does not evaluate to a string. */
    | Unevaluable(expr: string)
    /** Some property along the path does not exist. */
    | MissingProperty(expr: string)
    /** The path ends on an object rather than a string. */
    | NotAString(expr: string)

  /** `value.replace(/"/g, '')`. */
  function StripQuotes(v: string): (r: string)
    ensures '"' !in r
    ensures forall c :: c != '"' ==> multiset(r)[c] == multiset(v)[c]
    ensures '"' !in v ==> r == v
  {
    if |v| == 0 then []
    else
      assert v == [v[0]] + v[1..];
      (if v[0] == '"' then [] else [v[0]]) + StripQuotes(v[1..])
  }

  /** A quote is removed and any other character is kept. */
  lemma StripQuotesChar(c: char)
    ensures StripQuotes([c]) == if c == '"' then [] else [c]
  {
    assert [c][1..] == [];
  }

  /** Quotes are removed piece by piece, so the characters that stay keep their order. */
  lemma {:induction false} StripQuotesAppend(a: string, b: string)
    ensures StripQuotes(a + b) == StripQuotes(a) + StripQuotes(b)
    decreases |a|
  {
    if |a| == 0 {
      assert a + b == b;
    } else {
      assert (a + b)[1..] == a[1..] + b;
      StripQuotesFirst(a + b);
      StripQuotesFirst(a);
      StripQuotesAppend(a[1..], b);
      JoinAssociates(StripQuotes([a[0]]), StripQuotes(a[1..]), StripQuotes(b));
    }
  }

  /** Joining strings is associative. */
  lemma JoinAssociates(x: string, y: string, z: string)
    ensures x + (y + z) == (x + y) + z
  {
  }

  /** Removing quotes looks at the first character, then at the rest. */
  lemma StripQuotesFirst(v: string)
    requires |v| > 0
    ensures StripQuotes(v) == StripQuotes([v[0]]) + StripQuotes(v[1..])
  {
    StripQuotesChar(v[0]);
  }

  const RefPrefix := "CKEDITOR.lang[\""
  const RefInfix := "\"]."

  /** The expression `getStringLangValue` hands to `eval`. */
  function Rewrite(value: string, lang: string): (r: string)
    ensures '.' !in value ==> r == value
    ensures '.' in value ==> StartsWith(r, RefPrefix + lang + RefInfix) && '"' !in r[|RefPrefix + lang + RefInfix|..]
  {
    if '.' in value then RefPrefix + lang + RefInfix + StripQuotes(value) else value
  }

  /** A reference `CKEDITOR.lang["<lang>"].<path>`. */
  datatype Ref = Ref(lang: string, path: string)

  /**
   * Reads an expression of the form `CKEDITOR.lang["<lang>"].<path>`.
   * The language code ends at the first `"`; one containing a backslash
   * would be read by JavaScript as an escape, so it is not accepted.
   */
  function ParseRef(expr: string): (r: Option<Ref>) {
    if !StartsWith(expr, RefPrefix) then None
    else
      var rest := expr[|RefPrefix|..];
      match IndexOf(rest, '"')
      case None => None
      case Some(i) =>
        if StartsWith(rest[i..], RefInfix) && '\\' !in rest[..i] then
          Some(Ref(rest[..i], rest[i + |RefInfix|..]))
        else None
  }

  /**
   * The rewrite scopes a dotted value to the current language: reading the
   * expression back yields that language and the value with its quotes removed.
   */
  lemma ParseRewrite(value: string, lang: string)
    requires '.' in value
    requires '"' !in lang && '\\' !in lang
    ensures ParseRef(Rewrite(value, lang)) == Some(Ref(lang, StripQuotes(value)))
  {
    ParseRefOf(lang, StripQuotes(value));
  }

  lemma ParseRefOf(lang: string, path: string)
    requires '"' !in lang && '\\' !in lang
    ensures ParseRef(RefPrefix + lang + RefInfix + path) == Some(Ref(lang, path))
  {
    var tail := RefInfix + path;
    var rest := lang + tail;
    var expr := RefPrefix + rest;
    assert RefPrefix + lang + RefInfix + path == expr;
    PrefixParts(RefPrefix, rest);
    var after := "]." + path;
    assert tail == ['"'] + after;
    assert rest == lang + ['"'] + after;
    IndexOfFirst(lang, '"', after);
    PrefixParts(lang, tail);
    PrefixParts(RefInfix, path);
    assert rest[..|lang|] == lang;
    assert rest[|lang| + |RefInfix|..] == rest[|lang|..][|RefInfix|..];
  }

  /** JavaScript identifier names restricted to ASCII, as they may follow a `.`. */
  predicate IsIdentifierName(seg: string) {
    && |seg| > 0
    && !('0' <= seg[0] <= '9')
    && forall i :: 0 <= i < |seg| ==> LangFile.IsWordChar(seg[i]) || seg[i] == '$'
  }

  /** Follows `path` through nested objects; `None` as soon as a property is missing. */
  function Walk(node: Node, path: seq<string>): (r: Option<Node>)
    decreases |path|
  {
    if |path| == 0 then Some(node)
    else
      match node
      case Text(_) => None
      case Object(props) =>
        if path[0] in props then Walk(props[path[0]], path[1..]) else None
  }

  /** Walking `p + q` is walking `p`, then `q` from where `p` ends. */
  lemma {:induction false} WalkAppend(node: Node, p: seq<string>, q: seq<string>)
    ensures Walk(node, p + q) == match Walk(node, p) case None => None case Some(n) => Walk(n, q)
    decreases |p|
  {
    if |p| > 0 {
      assert (p + q)[0] == p[0];
      assert (p + q)[1..] == p[1..] + q;
      match node
      case Text(_) =>
      case Object(props) =>
        if p[0] in props {
          WalkAppend(props[p[0]], p[1..], q);
        }
    } else {
      assert p + q == q;
    }
  }

  predicate AllIdentifiers(segs: seq<string>) {
    forall i :: 0 <= i < |segs| ==> IsIdentifierName(segs[i])
  }

  /**
   * `eval(expr)` with `ns` standing for `CKEDITOR.lang` and `literals`
   * for the dot-free expressions that evaluate to strings.
   */
  function Evaluate(expr: string, ns: Node, literals: map<string, string>): (r: Result<string, EvalError>)
    ensures r.Failure? ==> r.error.expr == expr
    ensures r.Success? && ParseRef(expr).None? ==> expr in literals && r.value == literals[expr]
  {
    match ParseRef(expr)
    case Some(ref) =>
      var segs := Split(ref.path, '.');
      if !AllIdentifiers(segs) then Failure(SyntaxError(expr))
      else
        match Walk(ns, [ref.lang] + segs) {
          case None => Failure(MissingProperty(expr))
          case Some(Text(s)) => Success(s)
          case Some(Object(_)) => Failure(NotAString(expr))
        }
    case None =>
      if '.' in expr then Failure(SyntaxError(expr))
      else if expr in literals then Success(literals[expr])
      else Failure(Unevaluable(expr))
  }

  /** `getStringLangValue(value, lang)`. */
  function ResolveValue(value: string, lang: string, ns: Node, literals: map<string, string>): (r: Result<string, EvalError>)
    ensures r.Failure? ==> r.error.expr == Rewrite(value, lang)
  {
    Evaluate(Rewrite(value, lang), ns, literals)
  }

  /**
   * A dotted value resolves to the string found by walking the current
   * language's object along the dot-separated pieces of the value without
   * its quotes, and fails when some property is missing.
   */
  lemma ResolveDotted(value: string, lang: string, ns: Node, literals: map<string, string>)
    requires '.' in value
    requires '"' !in lang && '\\' !in lang
    requires AllIdentifiers(Split(StripQuotes(value), '.'))
    ensures var found := Walk(ns, [lang] + Split(StripQuotes(value), '.'));
      && (ResolveValue(value, lang, ns, literals).Success? <==> found.Some? && found.value.Text?)
      && (ResolveValue(value, lang, ns, literals).Success? ==> ResolveValue(value, lang, ns, literals).value == found.value.text)
  {
    ParseRewrite(value, lang);
  }

  /** Another language's strings are never consulted: only the subtree of `lang` matters. */
  lemma ResolveDottedIsScoped(value: string, lang: string, ns: Node, ns': Node, literals: map<string, string>)
    requires '.' in value
    requires '"' !in lang && '\\' !in lang
    requires ns.Object? && ns'.Object?
    requires lang in ns.props && lang in ns'.props && ns.props[lang] == ns'.props[lang]
    ensures ResolveValue(value, lang, ns, literals) == ResolveValue(value, lang, ns', literals)
  {
    ParseRewrite(value, lang);
    EvaluateIsScoped(Rewrite(value, lang), lang, StripQuotes(value), ns, ns', literals);
  }

  /** Evaluating a reference into `lang` reads nothing outside the subtree of `lang`. */
  lemma EvaluateIsScoped(expr: string, lang: string, path: string, ns: Node, ns': Node, literals: map<string, string>)
    requires ParseRef(expr) == Some(Ref(lang, path))
    requires ns.Object? && ns'.Object?
    requires lang in ns.props && lang in ns'.props && ns.props[lang] == ns'.props[lang]
    ensures Evaluate(expr, ns, literals) == Evaluate(expr, ns', literals)
  {
    var segs := Split(path, '.');
    WalkAppend(ns, [lang], segs);
    WalkAppend(ns', [lang], segs);
  }

  /** A value without a dot is decoded as it stands, by the table of literal meanings. */
  lemma ResolveLiteral(value: string, lang: string, ns: Node, literals: map<string, string>)
    requires '.' !in value
    ensures ResolveValue(value, lang, ns, literals) ==
      if value in literals then Success(literals[value]) else Failure(Unevaluable(value))
  {
    assert RefPrefix[8] == '.';
    StartsWithContains(value, RefPrefix, '.');
  }

  /** How the step evaluates one value. */
  type Resolver = string -> Result<string, EvalError>

  /** `ResolveValue` for one language and the `CKEDITOR.lang` it has loaded. */
  function ResolverFor(lang: string, ns: Node, literals: map<string, string>): Resolver {
    v => ResolveValue(v, lang, ns, literals)
  }

  /**
   * Resolves every value of `content` with `resolve`, keeping keys and
   * order; the first value that cannot be resolved stops the whole step.
   */
  function ResolveContent(content: seq<Entry>, resolve: Resolver): (r: Result<seq<Entry>, EvalError>)
    ensures r.Success? ==> |r.value| == |content|
  {
    if |content| == 0 then Success([])
    else
      match resolve(content[0].value)
      case Failure(e) => Failure(e)
      case Success(v) =>
        match ResolveContent(content[1..], resolve)
        case Failure(e) => Failure(e)
        case Success(rest) => Success([Entry(content[0].key, v)] + rest)
  }

  /** The source step succeeds iff every value resolves. */
  lemma {:induction false} ResolveContentSucceeds(content: seq<Entry>, resolve: Resolver)
    ensures ResolveContent(content, resolve).Success? <==>
      forall i :: 0 <= i < |content| ==> resolve(content[i].value).Success?
  {
    if |content| > 0 {
      var tail := content[1..];
      ResolveContentSucceeds(tail, resolve);
      assert forall i :: 1 <= i < |content| ==> content[i] == tail[i - 1];
    }
  }

  /** A successful source step keeps every key in place, bound to its resolved value. */
  lemma ResolveContentValues(content: seq<Entry>, resolve: Resolver)
    requires ResolveContent(content, resolve).Success?
    ensures var r := ResolveContent(content, resolve).value;
      && Keys(r) == Keys(content)
      && forall i :: 0 <= i < |content| ==> resolve(content[i].value) == Success(r[i].value)
  {
    ResolveContentKeys(content, resolve);
    ResolveContentResolved(content, resolve);
  }

  lemma {:induction false} ResolveContentKeys(content: seq<Entry>, resolve: Resolver)
    requires ResolveContent(content, resolve).Success?
    ensures Keys(ResolveContent(content, resolve).value) == Keys(content)
  {
    if |content| > 0 {
      var tail := content[1..];
      var first := resolve(content[0].value);
      var rt := ResolveContent(tail, resolve);
      ResolveContentKeys(tail, resolve);
      var e := Entry(content[0].key, first.value);
      assert ResolveContent(content, resolve).value == [e] + rt.value;
      KeysCons(e, rt.value);
      assert Keys(content) == [content[0].key] + Keys(tail);
    }
  }

  lemma {:induction false} ResolveContentResolved(content: seq<Entry>, resolve: Resolver)
    requires ResolveContent(content, resolve).Success?
    ensures var r := ResolveContent(content, resolve).value;
      && |r| == |content|
      && forall i :: 0 <= i < |content| ==> resolve(content[i].value) == Success(r[i].value)
  {
    if |content| > 0 {
      var tail := content[1..];
      var first := resolve(content[0].value);
      var rt := ResolveContent(tail, resolve);
      ResolveContentResolved(tail, resolve);
      var r := [Entry(content[0].key, first.value)] + rt.value;
      assert ResolveContent(content, resolve).value == r;
      assert forall i :: 1 <= i < |content| ==> content[i] == tail[i - 1] && r[i] == rt.value[i - 1];
    }
  }

  /** A failed source step reports the error of the first value that does not resolve. */
  lemma {:induction false} ResolveContentFailure(content: seq<Entry>, resolve: Resolver)
    requires ResolveContent(content, resolve).Failure?
    ensures exists i :: FirstFailure(content, resolve, i, ResolveContent(content, resolve).error)
  {
    var tail := content[1..];
    var first := resolve(content[0].value);
    var r := ResolveContent(content, resolve);
    if first.Failure? {
      assert FirstFailure(content, resolve, 0, r.error);
    } else {
      ResolveContentFailure(tail, resolve);
      var i :| FirstFailure(tail, resolve, i, r.error);
      assert forall j :: 1 <= j <= i ==> content[j] == tail[j - 1];
      assert FirstFailure(content, resolve, i + 1, r.error);
    }
  }

  /** Entry `i` fails with `e` and every entry before it resolves. */
  ghost predicate FirstFailure(content: seq<Entry>, resolve: Resolver, i: int, e: EvalError) {
    && 0 <= i < |content|
    && resolve(content[i].value) == Failure(e)
    && forall j :: 0 <= j < i ==> resolve(content[j].value).Success?
  }

  /** Resolved values keep the keys, so a table stays a table. */
  lemma ResolveContentKeepsDistinct(content: seq<Entry>, resolve: Resolver)
    requires Distinct(content)
    requires ResolveContent(content, resolve).Success?
    ensures Distinct(ResolveContent(content, resolve).value)
  {
    ResolveContentValues(content, resolve);
  }
}

=== FILE: scenarios.dfy ===
/**
 * Worked builds on small inputs: one language with and without an
 * override file, two languages in a row sharing the one table, and a value
 * whose path runs through a missing object.
 *
 * In all of them the lang content binds one key `g` to the dotted value
 * `msgs.hi`, the language's `CKEDITOR.lang` defines `<lang>.msgs.hi`, and
 * the default translations bind one other key `f`.  With `g = greeting`,
 * `msgs.hi = Hi`, `f = farewell` bound to `Bye` and an override binding
 * `greeting` to `Hello`, these are the builds `{greeting: "Hello",
 * farewell: "Bye"}` with `<lang>.json` and `{greeting: "Hi"}` without it.
 */
module Scenarios {
  import opened Wrappers
  import opened StringTable
  import opened LangFile
  import opened Languages
  import Strings
  import Resolve
  import Serialise

  /** `CKEDITOR.lang` once `lib/lang/<lang>.js` is loaded: only `<lang>.msgs.hi` is defined, as `hi`. */
  function LibOf(lang: string, hi: string): Resolve.Node {
    Resolve.Object(map[lang := Resolve.Object(map["msgs" := Resolve.Object(map["hi" := Resolve.Text(hi)])])])
  }

  /** A language code the rewritten expression can quote. */
  predicate Quotable(lang: string) {
    '"' !in lang && '\\' !in lang
  }

  // ---------------------------------------------------------------------
  // Resolving `<a>.<b>`

  /** A dotted value of two pieces splits into those pieces. */
  lemma SplitTwo(a: string, b: string)
    requires '.' !in a && '.' !in b
    ensures Strings.Split(a + "." + b, '.') == [a, b]
  {
    var segs := [a, b];
    Strings.JoinCons(a, [b], '.');
    assert Strings.Join(segs, '.') == a + "." + b;
    Strings.SplitJoin(segs, '.');
  }

  /** `<a>.<b>` read as a property path of `lang`: the segments `lang`, `<a>`, `<b>`. */
  lemma PathOfTwo(lang: string, a: string, b: string)
    requires Resolve.IsIdentifierName(a) && '.' !in a && '"' !in a
    requires Resolve.IsIdentifierName(b) && '.' !in b && '"' !in b
    ensures Resolve.StripQuotes(a + "." + b) == a + "." + b
    ensures Resolve.AllIdentifiers(Strings.Split(a + "." + b, '.'))
    ensures [lang] + Strings.Split(a + "." + b, '.') == [lang, a, b]
  {
    SplitTwo(a, b);
  }

  /** Walking `lang`, `a`, `b` reaches the string `hi` only for `msgs.hi`; anything else is missing. */
  lemma WalkTwo(ns: Resolve.Node, lang: string, hi: string, path: seq<string>, a: string, b: string)
    requires ns == LibOf(lang, hi) && path == [lang, a, b]
    ensures Resolve.Walk(ns, path) == if a == "msgs" && b == "hi" then Some(Resolve.Text(hi)) else None
  {
    var node := ns.props[lang];
    assert path[0] == lang && path[1..] == [a, b];
    assert Resolve.Walk(ns, path) == Resolve.Walk(node, [a, b]);
    if a == "msgs" {
      var msgs := node.props["msgs"];
      assert [a, b][1..] == [b];
      assert Resolve.Walk(node, [a, b]) == Resolve.Walk(msgs, [b]);
      assert [b][1..] == [];
      if b == "hi" {
        assert Resolve.Walk(msgs, [b]) == Resolve.Walk(Resolve.Text(hi), []);
      } else {
        assert b !in msgs.props;
      }
    } else {
      assert a !in node.props;
    }
  }

  /** A dotted, quote-free value whose pieces are identifiers evaluates by walking those pieces under `lang`. */
  lemma ResolvesPath(value: string, lang: string, ns: Resolve.Node, literals: map<string, string>, segs: seq<string>)
    requires '.' in value && '"' !in value && Quotable(lang)
    requires Strings.Split(value, '.') == segs && Resolve.AllIdentifiers(segs)
    ensures var expr := Resolve.Rewrite(value, lang);
      Resolve.ResolveValue(value, lang, ns, literals) ==
        match Resolve.Walk(ns, [lang] + segs)
        case None => Failure(Resolve.MissingProperty(expr))
        case Some(Text(s)) => Success(s)
        case Some(Object(_)) => Failure(Resolve.NotAString(expr))
  {
    Resolve.ParseRewrite(value, lang);
  }

  /**
   * `<a>.<b>` is the expression `CKEDITOR.lang["<lang>"].<a>.<b>`: the
   * string for `msgs.hi`, a missing property otherwise.
   */
  lemma ResolvesTwo(ns: Resolve.Node, literals: map<string, string>, lang: string, hi: string, a: string, b: string, value: string)
    requires ns == LibOf(lang, hi) && Quotable(lang) && value == a + "." + b
    requires Resolve.IsIdentifierName(a) && '.' !in a && '"' !in a
    requires Resolve.IsIdentifierName(b) && '.' !in b && '"' !in b
    ensures Resolve.ResolveValue(value, lang, ns, literals) ==
      if a == "msgs" && b == "hi" then Success(hi) else Failure(Resolve.MissingProperty(Resolve.Rewrite(value, lang)))
  {
    PathOfTwo(lang, a, b);
    assert value[|a|] == '.';
    var segs := Strings.Split(value, '.');
    WalkTwo(ns, lang, hi, [lang] + segs, a, b);
    ResolvesPath(value, lang, ns, literals, segs);
  }

  lemma ResolveContentOne(content: seq<Entry>, resolve: Resolve.Resolver)
    requires |content| == 1
    ensures Resolve.ResolveContent(content, resolve) ==
      match resolve(content[0].value)
      case Success(v) => Success([Entry(content[0].key, v)])
      case Failure(e) => Failure(e)
  {
    assert content[1..] == [];
    if resolve(content[0].value).Success? {
      var e := Entry(content[0].key, resolve(content[0].value).value);
      assert [e] + [] == [e];
    }
  }

  /** The lang content `{g: "msgs.hi"}` resolves to `{g: hi}`. */
  lemma ResolvesGreeting(content: seq<Entry>, g: string, lang: string, ns: Resolve.Node, literals: map<string, string>, hi: string)
    requires content == [Entry(g, "msgs.hi")] && ns == LibOf(lang, hi) && Quotable(lang)
    ensures Resolve.ResolveContent(content, Resolve.ResolverFor(lang, ns, literals)) == Success([Entry(g, hi)])
  {
    var resolve := Resolve.ResolverFor(lang, ns, literals);
    assert Resolve.IsIdentifierName("msgs") && Resolve.IsIdentifierName("hi");
    assert content[0].value == "msgs" + "." + "hi";
    ResolvesTwo(ns, literals, lang, hi, "msgs", "hi", content[0].value);
    assert resolve(content[0].value) == Success(hi);
    ResolveContentOne(content, resolve);
  }

  /**
   * The lang content `{g: "nope.hi"}` does not resolve: `nope` is not a
   * property of the language's object, so reading `hi` of it throws.
   */
  lemma MissingFails(content: seq<Entry>, g: string, lang: string, ns: Resolve.Node, literals: map<string, string>, hi: string)
    requires content == [Entry(g, "nope.hi")] && ns == LibOf(lang, hi) && Quotable(lang)
    ensures Resolve.ResolveContent(content, Resolve.ResolverFor(lang, ns, literals)) ==
      Failure(Resolve.MissingProperty(Resolve.Rewrite("nope.hi", lang)))
  {
    var resolve := Resolve.ResolverFor(lang, ns, literals);
    assert Resolve.IsIdentifierName("nope") && Resolve.IsIdentifierName("hi");
    assert content[0].value == "nope" + "." + "hi";
    ResolvesTwo(ns, literals, lang, hi, "nope", "hi", content[0].value);
    ResolveContentOne(content, resolve);
  }

  // ---------------------------------------------------------------------
  // Merging

  /** Assigning the one entry of a one-entry table. */
  lemma SetAllOne(t: seq<Entry>, e: Entry)
    ensures SetAll(t, [e]) == SetRaw(t, e.key, e.value)
  {
    var src := [e];
    assert src[1..] == [];
    assert SetAllRaw(t, src) == SetAllRaw(Set(t, e.key, e.value), []);
  }

  /** With an override file the override wins for `g` and the default adds `f` behind it. */
  lemma MergeWithOverride(g: string, hi: string, hello: string, f: string, bye: string)
    requires g != f
    ensures Merge([], [Entry(g, hi)], [Entry(f, bye)], Some([Entry(g, hello)])) == [Entry(g, hello), Entry(f, bye)]
  {
    var s1 := [Entry(g, hi)];
    var s2 := [Entry(g, hi), Entry(f, bye)];
    SetAllOne([], Entry(g, hi));
    SetAllOne(s1, Entry(f, bye));
    assert SetRaw(s1, f, bye) == s2 by {
      assert s1[1..] == [];
    }
    SetAllOne(s2, Entry(g, hello));
    assert SetRaw(s2, g, hello) == [Entry(g, hello), Entry(f, bye)] by {
      assert s2[1..] == [Entry(f, bye)];
    }
    MergeOfOverride([], [Entry(g, hi)], [Entry(f, bye)], [Entry(g, hello)]);
  }

  /** The override branch of `Merge`: the source values, then the defaults, then the overrides. */
  lemma MergeOfOverride(strings: seq<Entry>, resolved: Table, defaults: Table, o: Table)
    ensures Merge(strings, resolved, defaults, Some(o)) == SetAll(SetAll(SetAll(strings, resolved), defaults), o)
  {
  }

  /** Without one, only the resolved source value is assigned, over whatever the table holds. */
  lemma MergeWithoutOverride(strings: seq<Entry>, g: string, hi: string, defaults: Table)
    ensures Merge(strings, [Entry(g, hi)], defaults, None) == SetRaw(strings, g, hi)
  {
    SetAllOne(strings, Entry(g, hi));
  }

  // ---------------------------------------------------------------------
  // Steps and walks

  /** The step of an accepted, loadable, writable file whose content resolves to `resolved`. */
  lemma StepOfResolved(strings: seq<Entry>, d: Table, name: string, inp: Inputs, resolved: seq<Entry>, merged: seq<Entry>)
    requires Whitelisted(name) && name in inp.lib && OutputPath(name) !in inp.unwritable
    requires Resolve.ResolveContent(inp.content, Resolve.ResolverFor(LangCode(name), inp.lib[name], inp.literals)) == Success(resolved)
    requires Distinct(resolved) && merged == Merge(strings, resolved, d, Find(inp.overrides, LangCode(name)))
    ensures Step(strings, d, name, inp) == Success(Emitted(merged, Write(OutputPath(name), Serialise.FileText(name, merged))))
  {
  }

  /** The step of a file whose `CKEDITOR.lang` defines `<lang>.msgs.hi` as `hi`, on content `{g: "msgs.hi"}`. */
  lemma StepOfGreeting(strings: seq<Entry>, d: Table, name: string, inp: Inputs, g: string, hi: string, merged: seq<Entry>)
    requires Whitelisted(name) && Quotable(LangCode(name))
    requires inp.content == [Entry(g, "msgs.hi")] && name in inp.lib && inp.lib[name] == LibOf(LangCode(name), hi)
    requires OutputPath(name) !in inp.unwritable
    requires merged == Merge(strings, [Entry(g, hi)], d, Find(inp.overrides, LangCode(name)))
    ensures Step(strings, d, name, inp) == Success(Emitted(merged, Write(OutputPath(name), Serialise.FileText(name, merged))))
  {
    ResolvesGreeting(inp.content, g, LangCode(name), inp.lib[name], inp.literals, hi);
    StepOfResolved(strings, d, name, inp, [Entry(g, hi)], merged);
  }

  /** A walk over one name whose handler emits is that one write. */
  lemma WalkOfOneFile(handle: Handler, strings: seq<Entry>, names: seq<string>, s: seq<Entry>, w: Write)
    requires |names| == 1 && handle(strings, names[0]) == Success(Emitted(s, w))
    ensures WalkFiles(handle, strings, names) == Outcome([w], s, None)
  {
    assert names[1..] == [];
    assert WalkFiles(handle, s, names[1..]) == Outcome([], s, None);
  }

  /** A walk over two names whose handler emits twice is those two writes, the second on the first's table. */
  lemma WalkOfTwoFiles(handle: Handler, strings: seq<Entry>, names: seq<string>,
                       s1: seq<Entry>, w1: Write, s2: seq<Entry>, w2: Write)
    requires |names| == 2
    requires handle(strings, names[0]) == Success(Emitted(s1, w1))
    requires handle(s1, names[1]) == Success(Emitted(s2, w2))
    ensures WalkFiles(handle, strings, names) == Outcome([w1, w2], s2, None)
  {
    var rest := names[1..];
    assert rest[0] == names[1];
    WalkOfOneFile(handle, s1, rest, s2, w2);
    assert [w1] + [w2] == [w1, w2];
  }

  /** One emitting step on the only name is the whole build. */
  lemma BuildOfOneFile(names: seq<string>, inp: Inputs, d: Table, s: seq<Entry>, w: Write)
    requires |names| == 1 && inp.defaults == Some(d)
    requires Step([], d, names[0], inp) == Success(Emitted(s, w))
    ensures Build(names, inp) == Outcome([w], s, None)
  {
    var handle := HandlerOf(d, inp);
    assert handle([], names[0]) == Step([], d, names[0], inp);
    WalkOfOneFile(handle, [], names, s, w);
  }

  /** Two emitting steps, the second on the table the first left, are the whole build. */
  lemma BuildOfTwoFiles(names: seq<string>, inp: Inputs, d: Table, s1: seq<Entry>, w1: Write, s2: seq<Entry>, w2: Write)
    requires |names| == 2 && inp.defaults == Some(d)
    requires Step([], d, names[0], inp) == Success(Emitted(s1, w1))
    requires Step(s1, d, names[1], inp) == Success(Emitted(s2, w2))
    ensures Build(names, inp) == Outcome([w1, w2], s2, None)
  {
    var handle := HandlerOf(d, inp);
    assert handle([], names[0]) == Step([], d, names[0], inp);
    assert handle(s1, names[1]) == Step(s1, d, names[1], inp);
    WalkOfTwoFiles(handle, [], names, s1, w1, s2, w2);
  }

  // ---------------------------------------------------------------------
  // Builds

  /** With `<lang>.json` present the build writes one file of `{g: hello, f: bye}`. */
  lemma BuildWithOverride(name: string, inp: Inputs, g: string, hi: string, hello: string, f: string, bye: string)
    requires Whitelisted(name) && Quotable(LangCode(name)) && g != f
    requires inp.content == [Entry(g, "msgs.hi")] && inp.lib == map[name := LibOf(LangCode(name), hi)]
    requires inp.defaults == Some([Entry(f, bye)]) && inp.overrides == map[LangCode(name) := [Entry(g, hello)]]
    requires inp.unwritable == {}
    ensures var t := [Entry(g, hello), Entry(f, bye)];
      Build([name], inp) == Outcome([Write(GeneratedDir + name, Serialise.FileText(name, t))], t, None)
  {
    var d := [Entry(f, bye)];
    var t := [Entry(g, hello), Entry(f, bye)];
    MergeWithOverride(g, hi, hello, f, bye);
    StepOfGreeting([], d, name, inp, g, hi, t);
    BuildOfOneFile([name], inp, d, t, Write(OutputPath(name), Serialise.FileText(name, t)));
  }

  /** Without `<lang>.json` the defaults do not appear: the build writes `{g: hi}`. */
  lemma BuildWithoutOverride(name: string, inp: Inputs, g: string, hi: string, d: Table)
    requires Whitelisted(name) && Quotable(LangCode(name))
    requires inp.content == [Entry(g, "msgs.hi")] && inp.lib == map[name := LibOf(LangCode(name), hi)]
    requires inp.defaults == Some(d) && inp.overrides == map[] && inp.unwritable == {}
    ensures var t := [Entry(g, hi)];
      Build([name], inp) == Outcome([Write(GeneratedDir + name, Serialise.FileText(name, t))], t, None)
  {
    var t := [Entry(g, hi)];
    MergeWithoutOverride([], g, hi, d);
    StepOfGreeting([], d, name, inp, g, hi, t);
    BuildOfOneFile([name], inp, d, t, Write(OutputPath(name), Serialise.FileText(name, t)));
  }

  /** The first language's step: its override file wins for `g`, and the default `f` is added. */
  lemma FirstStep(first: string, inp: Inputs, d: Table, g: string, hi: string, hello: string, f: string, bye: string,
                  t1: seq<Entry>)
    requires Whitelisted(first) && Quotable(LangCode(first)) && g != f
    requires inp.content == [Entry(g, "msgs.hi")] && first in inp.lib && inp.lib[first] == LibOf(LangCode(first), hi)
    requires d == [Entry(f, bye)] && Find(inp.overrides, LangCode(first)) == Some([Entry(g, hello)])
    requires OutputPath(first) !in inp.unwritable && t1 == [Entry(g, hello), Entry(f, bye)]
    ensures Step([], d, first, inp) == Success(Emitted(t1, Write(OutputPath(first), Serialise.FileText(first, t1))))
  {
    MergeWithOverride(g, hi, hello, f, bye);
    StepOfGreeting([], d, first, inp, g, hi, t1);
  }

  /** The second language's step: no override file, so only its `g` is assigned over the first's table. */
  lemma SecondStep(second: string, inp: Inputs, d: Table, g: string, salut: string, hello: string, f: string, bye: string,
                   t1: seq<Entry>, t2: seq<Entry>)
    requires Whitelisted(second) && Quotable(LangCode(second)) && g != f
    requires inp.content == [Entry(g, "msgs.hi")] && second in inp.lib && inp.lib[second] == LibOf(LangCode(second), salut)
    requires LangCode(second) !in inp.overrides && OutputPath(second) !in inp.unwritable
    requires t1 == [Entry(g, hello), Entry(f, bye)] && t2 == [Entry(g, salut), Entry(f, bye)]
    ensures Step(t1, d, second, inp) == Success(Emitted(t2, Write(OutputPath(second), Serialise.FileText(second, t2))))
  {
    MergeWithoutOverride(t1, g, salut, d);
    assert t1[1..] == [Entry(f, bye)];
    StepOfGreeting(t1, d, second, inp, g, salut, t2);
  }

  /**
   * A first language with an override file, then a second without one:
   * the second file still holds `f: bye`, left in the table by the first
   * step, next to its own resolved `g`.
   */
  lemma BuildCarriesOver(first: string, second: string, inp: Inputs,
                         g: string, hi: string, salut: string, hello: string, f: string, bye: string)
    requires Whitelisted(first) && Quotable(LangCode(first))
    requires Whitelisted(second) && Quotable(LangCode(second))
    requires g != f && inp.content == [Entry(g, "msgs.hi")]
    requires first in inp.lib && inp.lib[first] == LibOf(LangCode(first), hi)
    requires second in inp.lib && inp.lib[second] == LibOf(LangCode(second), salut)
    requires inp.defaults == Some([Entry(f, bye)])
    requires Find(inp.overrides, LangCode(first)) == Some([Entry(g, hello)]) && LangCode(second) !in inp.overrides
    requires OutputPath(first) !in inp.unwritable && OutputPath(second) !in inp.unwritable
    ensures var t1 := [Entry(g, hello), Entry(f, bye)];
      var t2 := [Entry(g, salut), Entry(f, bye)];
      Build([first, second], inp) ==
        Outcome([Write(GeneratedDir + first, Serialise.FileText(first, t1)),
                 Write(GeneratedDir + second, Serialise.FileText(second, t2))], t2, None)
  {
    var d := [Entry(f, bye)];
    var t1 := [Entry(g, hello), Entry(f, bye)];
    var t2 := [Entry(g, salut), Entry(f, bye)];
    FirstStep(first, inp, d, g, hi, hello, f, bye, t1);
    SecondStep(second, inp, d, g, salut, hello, f, bye, t1, t2);
    BuildOfTwoFiles([first, second], inp, d, t1, Write(OutputPath(first), Serialise.FileText(first, t1)),
                    t2, Write(OutputPath(second), Serialise.FileText(second, t2)));
  }

  /**
   * A value whose path runs through a missing object stops the whole build
   * at the first language: nothing is written, not even for the languages
   * after it.
   */
  lemma BuildStopsOnMissingProperty(first: string, second: string, inp: Inputs, g: string, hi: string, d: Table)
    requires Whitelisted(first) && Quotable(LangCode(first))
    requires inp.content == [Entry(g, "nope.hi")] && first in inp.lib && inp.lib[first] == LibOf(LangCode(first), hi)
    requires inp.defaults == Some(d)
    ensures Build([first, second], inp) ==
      Outcome([], [], Some(Unresolved(first, Resolve.MissingProperty(Resolve.Rewrite("nope.hi", LangCode(first))))))
  {
    MissingFails(inp.content, g, LangCode(first), inp.lib[first], inp.literals, hi);
    var handle := HandlerOf(d, inp);
    assert handle([], first) == Step([], d, first, inp);
  }

  /** No `language.json`: the build fails before looking at any file. */
  lemma BuildWithoutDefaults(names: seq<string>, inp: Inputs)
    requires inp.defaults.None?
    ensures Build(names, inp) == Outcome([], [], Some(MissingDefaults))
  {
  }
}

=== FILE: serialise.dfy ===
/**
 * The text written for one language: a header comment that points to the
 * hand-edited asset, then `AlloyEditor.Strings = `, the table as
 * `JSON.stringify(table, null, 2)` lays it out with the two leading spaces
 * of each line replaced by a tab, and a closing `;`.
 */
module Serialise {
  import opened Wrappers
  import opened Strings
  import opened StringTable
  import LangFile

  const Backspace: char := '\U{0008}'
  const FormFeed: char := '\U{000C}'

  function HexDigit(n: int): char
    requires 0 <= n < 16
  {
    if n < 10 then ('0' as int + n) as char else ('a' as int + n - 10) as char
  }

  /** One character as `JSON.stringify` writes it inside a string literal. */
  function EscapeChar(c: char): string {
    if c == Backspace then "\\b"
    else if c == '\t' then "\\t"
    else if c == '\n' then "\\n"
    else if c == FormFeed then "\\f"
    else if c == '\r' then "\\r"
    else if c == '"' then "\\\""
    else if c == '\\' then "\\\\"
    else if (c as int) < 0x20 then "\\u00" + [HexDigit(c as int / 16), HexDigit(c as int % 16)]
    else [c]
  }

  /** The contents of a JSON string literal for `s`; printable characters other than `"` and `\` stand for themselves. */
  function Escape(s: string): (r: string)
  {
    if |s| == 0 then "" else EscapeChar(s[0]) + Escape(s[1..])
  }

  /** A string as `JSON.stringify` writes it. */
  function Quote(s: string): (r: string)
  {
    "\"" + Escape(s) + "\""
  }

  // ---------------------------------------------------------------------
  // Reading a JSON string literal's contents back

  function HexValue(c: char): Option<int> {
    if '0' <= c <= '9' then Some(c as int - '0' as int)
    else if 'a' <= c <= 'f' then Some(c as int - 'a' as int + 10)
    else if 'A' <= c <= 'F' then Some(c as int - 'A' as int + 10)
    else None
  }

  /** The character of a two-character escape `\x`. */
  function ShortEscape(c: char): Option<char> {
    if c == 'b' then Some(Backspace)
    else if c == 't' then Some('\t')
    else if c == 'n' then Some('\n')
    else if c == 'f' then Some(FormFeed)
    else if c == 'r' then Some('\r')
    else if c == '"' then Some('"')
    else if c == '\\' then Some('\\')
    else if c == '/' then Some('/')
    else None
  }

  /** The code unit of `\uXXXX` at the front of `t`, if there is one. */
  function UnicodeEscape(t: string): (r: Option<int>)
    ensures r.Some? ==> 0 <= r.value < 0x10000
  {
    if |t| < 6 || t[0] != '\\' || t[1] != 'u' then None
    else
      match (HexValue(t[2]), HexValue(t[3]), HexValue(t[4]), HexValue(t[5]))
      case (Some(a), Some(b), Some(c), Some(d)) =>
        assert 0 <= a < 16 && 0 <= b < 16 && 0 <= c < 16 && 0 <= d < 16;
        Some(((a * 16 + b) * 16 + c) * 16 + d)
      case _ => None
  }

  function Prepend(c: char, r: Option<string>): Option<string> {
    match r
    case None => None
    case Some(s) => Some([c] + s)
  }

  /**
   * Decodes the contents of a JSON string literal (RFC 8259, section 7),
   * without surrogate pairs; `None` on anything a JSON parser rejects.
   */
  function Unescape(t: string): (r: Option<string>)
    decreases |t|
  {
    if |t| == 0 then Some("")
    else if t[0] == '\\' then
      if UnicodeEscape(t).Some? then
        var n := UnicodeEscape(t).value;
        if n < 0xD800 || 0xE000 <= n then Prepend(n as char, Unescape(t[6..])) else None
      else if |t| >= 2 && ShortEscape(t[1]).Some? then Prepend(ShortEscape(t[1]).value, Unescape(t[2..]))
      else None
    else if t[0] == '"' || (t[0] as int) < 0x20 then None
    else Prepend(t[0], Unescape(t[1..]))
  }

  lemma HexRoundTrip(n: int)
    requires 0 <= n < 16
    ensures HexValue(HexDigit(n)) == Some(n)
  {
  }

  lemma UnescapeEscapeChar(c: char, rest: string)
    ensures Unescape(EscapeChar(c) + rest) == Prepend(c, Unescape(rest))
  {
    if (c as int) < 0x20 && c != Backspace && c != '\t' && c != '\n' && c != FormFeed && c != '\r' {
      UnescapeHexEscape(c, rest);
    } else if |EscapeChar(c)| == 2 {
      UnescapeShortEscape(c, rest);
    } else {
      var t := EscapeChar(c) + rest;
      assert t == [c] + rest;
      assert t[1..] == rest;
    }
  }

  lemma UnescapeHexEscape(c: char, rest: string)
    requires (c as int) < 0x20 && c != Backspace && c != '\t' && c != '\n' && c != FormFeed && c != '\r'
    ensures Unescape(EscapeChar(c) + rest) == Prepend(c, Unescape(rest))
  {
    var hi := c as int / 16;
    var lo := c as int % 16;
    var t := "\\u00" + [HexDigit(hi), HexDigit(lo)] + rest;
    assert EscapeChar(c) + rest == t;
    HexRoundTrip(hi);
    HexRoundTrip(lo);
    assert UnicodeEscape(t) == Some(c as int);
    assert t[6..] == rest;
  }

  lemma UnescapeShortEscape(c: char, rest: string)
    requires |EscapeChar(c)| == 2
    ensures Unescape(EscapeChar(c) + rest) == Prepend(c, Unescape(rest))
  {
    var t := EscapeChar(c) + rest;
    assert t[..2] == EscapeChar(c);
    assert t[2..] == rest;
  }

  /** Whatever the string, a JSON parser reads back exactly what `Quote` wrote between the quotes. */
  lemma {:induction false} UnescapeEscape(s: string)
    ensures Unescape(Escape(s)) == Some(s)
  {
    if |s| > 0 {
      UnescapeEscape(s[1..]);
      UnescapeEscapeChar(s[0], Escape(s[1..]));
      assert s == [s[0]] + s[1..];
    }
  }

  /** `Quote` wraps the escaped contents in quotes, and a JSON parser reads `s` back from between them. */
  lemma QuoteRoundTrip(s: string)
    ensures var q := Quote(s); |q| >= 2 && q[0] == '"' && q[|q| - 1] == '"' && Unescape(q[1..|q| - 1]) == Some(s)
  {
    var q := Quote(s);
    assert q[1..|q| - 1] == Escape(s);
    UnescapeEscape(s);
  }

  // ---------------------------------------------------------------------
  // Layout of the table

  function Member(e: Entry): string {
    Quote(e.key) + ": " + Quote(e.value)
  }

  /** The lines after `{`: one member per line behind `indent`, then the closing `}`. */
  function Body(t: seq<Entry>, indent: string): (r: string)
    requires |t| >= 1
  {
    indent + (Member(t[0]) + (if |t| == 1 then "\n}" else ",\n" + Body(t[1..], indent)))
  }

  /** An object of string members, laid out with one level of `indent`. */
  function Layout(t: seq<Entry>, indent: string): (r: string) {
    if |t| == 0 then "{}" else "{\n" + Body(t, indent)
  }

  /** `JSON.stringify(table, null, 2)` for a table of strings. */
  function Stringify(t: seq<Entry>): (r: string)
    ensures |r| >= 2 && r[0] == '{' && r[|r| - 1] == '}'
    ensures r == "{}" <==> |t| == 0
  {
    LayoutBraces(t, "  ");
    Layout(t, "  ")
  }

  /** The member lines end with the closing brace. */
  lemma {:induction false} BodyEndsWithBrace(t: seq<Entry>, indent: string)
    requires |t| >= 1
    ensures |Body(t, indent)| >= 2 && Body(t, indent)[|Body(t, indent)| - 1] == '}'
  {
    if |t| > 1 {
      BodyEndsWithBrace(t[1..], indent);
    }
  }

  /** A layout is an object in braces, and only the empty table gives `{}`. */
  lemma LayoutBraces(t: seq<Entry>, indent: string)
    ensures |Layout(t, indent)| >= 2 && Layout(t, indent)[0] == '{' && Layout(t, indent)[|Layout(t, indent)| - 1] == '}'
    ensures Layout(t, indent) == "{}" <==> |t| == 0
  {
    if |t| > 0 {
      BodyEndsWithBrace(t, indent);
      assert |Layout(t, indent)| > 2;
    }
  }

  // ---------------------------------------------------------------------
  // `text.replace(/^  /gm, '\t')`

  /** What `^` in a multiline regular expression takes to end a line. */
  predicate IsLineTerminator(c: char) {
    c == '\n' || c == '\r' || c == '\U{2028}' || c == '\U{2029}'
  }

  /**
   * Replaces every two spaces that start a line by a tab; `atLineStart`
   * says whether the text before `s` ended a line.  After a replacement the
   * search resumes behind the two spaces, which is not a line start.
   */
  function ReplaceIndent(s: string, atLineStart: bool): (r: string)
    decreases |s|
  {
    if |s| == 0 then ""
    else if atLineStart && |s| >= 2 && s[0] == ' ' && s[1] == ' ' then "\t" + ReplaceIndent(s[2..], false)
    else [s[0]] + ReplaceIndent(s[1..], IsLineTerminator(s[0]))
  }

  /** `s.replace(/^  /gm, '\t')`. */
  function TabIndent(s: string): (r: string)
    ensures |r| <= |s|
    ensures ' ' !in s ==> r == s
  {
    ReplaceIndentShrinks(s, true);
    ReplaceIndent(s, true)
  }

  /** The replacement only ever turns two characters into one, and a text without spaces has nothing to replace. */
  lemma {:induction false} ReplaceIndentShrinks(s: string, atLineStart: bool)
    ensures |ReplaceIndent(s, atLineStart)| <= |s|
    ensures ' ' !in s ==> ReplaceIndent(s, atLineStart) == s
    decreases |s|
  {
    if |s| > 0 {
      if atLineStart && |s| >= 2 && s[0] == ' ' && s[1] == ' ' {
        ReplaceIndentShrinks(s[2..], false);
      } else {
        ReplaceIndentShrinks(s[1..], IsLineTerminator(s[0]));
        assert ' ' !in s ==> ' ' !in s[1..];
        assert s == [s[0]] + s[1..];
      }
    }
  }

  predicate NoLineTerminator(s: string) {
    forall i :: 0 <= i < |s| ==> !IsLineTerminator(s[i])
  }

  /** `JSON.stringify` escapes `\n` and `\r` but writes U+2028 and U+2029 as they are. */
  predicate NoLineSeparator(s: string) {
    '\U{2028}' !in s && '\U{2029}' !in s
  }

  predicate PlainMembers(t: seq<Entry>) {
    forall i :: 0 <= i < |t| ==> NoLineSeparator(t[i].key) && NoLineSeparator(t[i].value)
  }

  lemma {:induction false} EscapeHasNoLineTerminator(s: string)
    requires NoLineSeparator(s)
    ensures NoLineTerminator(Escape(s))
  {
    if |s| > 0 {
      assert s == [s[0]] + s[1..];
      EscapeHasNoLineTerminator(s[1..]);
      assert NoLineTerminator(EscapeChar(s[0]));
    }
  }

  lemma MemberHasNoLineTerminator(e: Entry)
    requires NoLineSeparator(e.key) && NoLineSeparator(e.value)
    ensures NoLineTerminator(Member(e))
  {
    EscapeHasNoLineTerminator(e.key);
    EscapeHasNoLineTerminator(e.value);
    var k := Quote(e.key);
    var v := Quote(e.value);
    NoLineTerminatorAppend("\"", Escape(e.key));
    NoLineTerminatorAppend("\"" + Escape(e.key), "\"");
    NoLineTerminatorAppend("\"", Escape(e.value));
    NoLineTerminatorAppend("\"" + Escape(e.value), "\"");
    NoLineTerminatorAppend(k, ": ");
    NoLineTerminatorAppend(k + ": ", v);
  }

  lemma NoLineTerminatorAppend(a: string, b: string)
    requires NoLineTerminator(a) && NoLineTerminator(b)
    ensures NoLineTerminator(a + b)
  {
    forall i | 0 <= i < |a + b| ensures !IsLineTerminator((a + b)[i]) {
      if i >= |a| {
        assert (a + b)[i] == b[i - |a|];
      }
    }
  }

  /** Text without a line end, outside a line start, passes through unchanged. */
  lemma {:induction false} ReplaceIndentPlain(x: string, y: string)
    requires NoLineTerminator(x)
    ensures ReplaceIndent(x + y, false) == x + ReplaceIndent(y, false)
  {
    if |x| > 0 {
      assert (x + y)[1..] == x[1..] + y;
      ReplaceIndentPlain(x[1..], y);
      assert x == [x[0]] + x[1..];
    } else {
      assert x + y == y;
    }
  }

  lemma {:induction false} ReplaceIndentBody(t: seq<Entry>)
    requires |t| >= 1 && PlainMembers(t)
    ensures ReplaceIndent(Body(t, "  "), true) == Body(t, "\t")
  {
    var m := Member(t[0]);
    MemberHasNoLineTerminator(t[0]);
    var rest := if |t| == 1 then "\n}" else ",\n" + Body(t[1..], "  ");
    var rest' := if |t| == 1 then "\n}" else ",\n" + Body(t[1..], "\t");
    var s := "  " + (m + rest);
    assert s[2..] == m + rest;
    assert ReplaceIndent(s, true) == "\t" + ReplaceIndent(m + rest, false);
    ReplaceIndentPlain(m, rest);
    if |t| == 1 {
      assert ReplaceIndent("\n}", false) == "\n}";
    } else {
      var b := Body(t[1..], "  ");
      assert (",\n" + b)[1..] == "\n" + b;
      assert ("\n" + b)[1..] == b;
      assert ReplaceIndent(",\n" + b, false) == ",\n" + ReplaceIndent(b, true);
      ReplaceIndentBody(t[1..]);
    }
  }

  /** A character that does not start a two-space indent is copied. */
  lemma ReplaceIndentCons(c: char, rest: string, atLineStart: bool)
    requires !atLineStart || c != ' '
    ensures ReplaceIndent([c] + rest, atLineStart) == [c] + ReplaceIndent(rest, IsLineTerminator(c))
  {
    assert ([c] + rest)[1..] == rest;
  }

  /**
   * Unless a key or value holds U+2028 or U+2029, replacing the leading
   * spaces gives exactly the tab-indented layout: only the indentation
   * of the member lines changes.
   */
  lemma TabIndentStringify(t: seq<Entry>)
    requires PlainMembers(t)
    ensures TabIndent(Stringify(t)) == Layout(t, "\t")
  {
    if |t| == 0 {
      TabIndentEmpty();
    } else {
      TabIndentNonEmpty(t);
    }
  }

  lemma TabIndentEmpty()
    ensures TabIndent(Stringify([])) == Layout([], "\t")
  {
    ReplaceIndentCons('{', "}", true);
    ReplaceIndentCons('}', "", false);
  }

  lemma TabIndentNonEmpty(t: seq<Entry>)
    requires PlainMembers(t) && |t| > 0
    ensures TabIndent(Stringify(t)) == Layout(t, "\t")
  {
    ReplaceIndentOpen(Body(t, "  "));
    ReplaceIndentBody(t);
  }

  /** The opening `{` line is copied and the line after it starts a line. */
  lemma ReplaceIndentOpen(b: string)
    ensures ReplaceIndent("{\n" + b, true) == "{\n" + ReplaceIndent(b, true)
  {
    assert "{\n" + b == ['{'] + (['\n'] + b);
    ReplaceIndentCons('{', ['\n'] + b, true);
    ReplaceIndentCons('\n', b, false);
  }

  /** A value holding U+2028 followed by two spaces gets a tab there too. */
  lemma LineSeparatorInValue(t: seq<Entry>)
    requires t == [Entry("k", "\U{2028}  ")]
    ensures TabIndent(Stringify(t)) != Layout(t, "\t")
  {
    var e := t[0];
    var x := "\"k\": \"";
    var y := "  \"\n}";
    SeparatorMember(e, x, ['\U{2028}'] + y);
    var b := Body(t, "  ");
    var b' := Body(t, "\t");
    assert b == "  " + (x + (['\U{2028}'] + y));
    assert b' == "\t" + (x + (['\U{2028}'] + y));
    SeparatorBody(b, x, y);
    assert Stringify(t) == ['{'] + (['\n'] + b);
    ReplaceIndentCons('{', ['\n'] + b, true);
    ReplaceIndentCons('\n', b, false);
    var r := ReplaceIndent(y, true);
    var out := ['{'] + (['\n'] + ("\t" + (x + (['\U{2028}'] + r))));
    assert TabIndent(Stringify(t)) == out;
    var tab := ['{'] + (['\n'] + b');
    assert Layout(t, "\t") == tab;
    DiffersAtTheTab(out, tab, x, y, r);
  }

  lemma DiffersAtTheTab(out: string, tab: string, x: string, y: string, r: string)
    requires x == "\"k\": \"" && y == "  \"\n}"
    requires out == ['{'] + (['\n'] + ("\t" + (x + (['\U{2028}'] + r))))
    requires tab == ['{'] + (['\n'] + ("\t" + (x + (['\U{2028}'] + y))))
    requires |r| > 0 && r[0] == '\t'
    ensures out != tab
  {
    assert out[10] == r[0];
    assert tab[10] == y[0];
  }

  lemma SeparatorBody(b: string, x: string, y: string)
    requires x == "\"k\": \"" && y == "  \"\n}"
    requires b == "  " + (x + (['\U{2028}'] + y))
    ensures ReplaceIndent(b, true) == "\t" + (x + (['\U{2028}'] + ReplaceIndent(y, true)))
    ensures ReplaceIndent(y, true)[0] == '\t'
  {
    var ls := ['\U{2028}'] + y;
    assert b[2..] == x + ls;
    assert NoLineTerminator(x);
    ReplaceIndentPlain(x, ls);
    ReplaceIndentCons('\U{2028}', y, false);
  }

  lemma SeparatorMember(e: Entry, x: string, ls: string)
    requires e.key == "k" && e.value == "\U{2028}  " && x == "\"k\": \"" && ls == "\U{2028}  \"\n}"
    ensures Member(e) + "\n}" == x + ls
  {
    assert Escape("  ") == "  " by {
      assert Escape(" ") == " ";
    }
    assert Escape(e.value) == "\U{2028}  ";
    assert Escape(e.key) == "k";
  }

  // ---------------------------------------------------------------------
  // The written file

  /** The header up to the asset path, and from the asset path on. */
  const Lead := "/**" + "\n * THIS FILE IS AUTOGENERATED. DO NOT EDIT.\n *\n * See "
  const Tail := " instead.\n " + "*/\n\n"

  /**
   * The comment that opens the generated file: a block comment whose
   * `See <asset> instead.` line names the asset to edit instead.
   */
  function Header(name: string): (r: string)
    ensures StartsWith(r, "/**") && EndsWith(r, "*/\n\n")
    ensures |r| == |Lead| + |LangFile.AssetFile(name)| + |Tail|
    ensures StartsWith(r, Lead) && EndsWith(r, Tail) && r[|Lead|..|r| - |Tail|] == LangFile.AssetFile(name)
  {
    var r := Lead + LangFile.AssetFile(name) + Tail;
    Framed(Lead, LangFile.AssetFile(name), Tail);
    assert Lead[..3] == "/**";
    assert Tail[|Tail| - 4..] == "*/\n\n";
    assert r[..3] == Lead[..3];
    assert r[|r| - 4..] == Tail[|Tail| - 4..];
    r
  }

  /** The part between the two ends is the middle. */
  lemma Framed(a: string, m: string, z: string)
    ensures StartsWith(a + m + z, a) && EndsWith(a + m + z, z)
    ensures (a + m + z)[|a|..|a + m + z| - |z|] == m
  {
    assert (a + m + z)[..|a|] == a;
    assert (a + m + z)[|a + m + z| - |z|..] == z;
  }

  /** Two generated files have the same header iff they point to the same asset. */
  lemma HeaderNamesAsset(a: string, b: string)
    ensures Header(a) == Header(b) <==> LangFile.AssetFile(a) == LangFile.AssetFile(b)
  {
  }

  /**
   * Without an end anchor on the whitelist, `a.jsb` and `a.jsb.js` are both
   * accepted and written to different files, whose headers are the same.
   */
  lemma ExampleSharedHeader()
    ensures LangFile.Whitelisted("a.jsb") && LangFile.Whitelisted("a.jsb.js")
    ensures LangFile.OutputPath("a.jsb") != LangFile.OutputPath("a.jsb.js")
    ensures Header("a.jsb") == Header("a.jsb.js")
  {
    LangFile.ExampleSharedAsset();
    HeaderNamesAsset("a.jsb", "a.jsb.js");
  }

  const Assignment := "AlloyEditor.Strings = "

  /** The content written for the file `name` when the table is `t`. */
  function FileText(name: string, t: seq<Entry>): (r: string)
    ensures StartsWith(r, Header(name)) && r[|r| - 1] == ';'
  {
    Header(name) + Assignment + TabIndent(Stringify(t)) + ";"
  }

  /**
   * The written text is the header naming the asset of `name`, the
   * assignment, the tab-indented layout of the table and `;`.
   */
  lemma FileTextShape(name: string, t: seq<Entry>)
    requires PlainMembers(t)
    ensures FileText(name, t) == Header(name) + Assignment + Layout(t, "\t") + ";"
  {
    TabIndentStringify(t);
  }
}

=== FILE: string_table.dfy ===
/**
 * A string table as a JavaScript object holds it: string keys bound to
 * string values, kept in insertion order.  Assigning to a key that is
 * already present replaces its value in place; assigning to a new key
 * appends it.  The order matters because the table is serialised in it.
 */
module StringTable {
  import opened Wrappers

  datatype Entry = Entry(key: string, value: string)

  /** The keys of `t`, in order. */
  function Keys(t: seq<Entry>): (ks: seq<string>)
    ensures |ks| == |t|
    ensures forall i :: 0 <= i < |t| ==> ks[i] == t[i].key
  {
    if |t| == 0 then [] else [t[0].key] + Keys(t[1..])
  }

  predicate NoDuplicates(s: seq<string>) {
    forall i, j :: 0 <= i < j < |s| ==> s[i] != s[j]
  }

  /** Every key occurs once, as in a JavaScript object. */
  predicate Distinct(t: seq<Entry>) {
    NoDuplicates(Keys(t))
  }

  /** A table loaded from a JavaScript object or a JSON file. */
  type Table = t: seq<Entry> | Distinct(t) witness []

  /** The value bound to `k` (the first binding, the only one in a `Table`). */
  function Get(t: seq<Entry>, k: string): (r: Option<string>)
    ensures r.Some? <==> k in Keys(t)
    ensures r.Some? ==> Entry(k, r.value) in t
  {
    if |t| == 0 then None
    else if t[0].key == k then Some(t[0].value)
    else
      assert Keys(t) == [t[0].key] + Keys(t[1..]);
      assert forall e :: e in t[1..] ==> e in t;
      Get(t[1..], k)
  }

  lemma KeysCons(e: Entry, t: seq<Entry>)
    ensures Keys([e] + t) == [e.key] + Keys(t)
  {
    assert ([e] + t)[1..] == t;
  }

  lemma GetCons(e: Entry, t: seq<Entry>, k: string)
    ensures Get([e] + t, k) == if e.key == k then Some(e.value) else Get(t, k)
  {
    assert ([e] + t)[1..] == t;
  }

  lemma NoDuplicatesAppend(s: seq<string>, x: string)
    requires NoDuplicates(s) && x !in s
    ensures NoDuplicates(s + [x])
  {
  }

  /** `t[k] = v` on a JavaScript object. */
  function Set(t: seq<Entry>, k: string, v: string): (r: seq<Entry>)
    ensures Keys(r) == if k in Keys(t) then Keys(t) else Keys(t) + [k]
    ensures Get(r, k) == Some(v)
    ensures forall j :: j != k ==> Get(r, j) == Get(t, j)
    ensures Distinct(t) ==> Distinct(r)
  {
    var r := SetRaw(t, k, v);
    SetRawKeys(t, k, v);
    SetRawGet(t, k, v);
    if Distinct(t) && k !in Keys(t) then NoDuplicatesAppend(Keys(t), k); r else r
  }

  function SetRaw(t: seq<Entry>, k: string, v: string): seq<Entry>
  {
    if |t| == 0 then [Entry(k, v)]
    else if t[0].key == k then [Entry(k, v)] + t[1..]
    else [t[0]] + SetRaw(t[1..], k, v)
  }

  lemma {:induction false} SetRawKeys(t: seq<Entry>, k: string, v: string)
    ensures Keys(SetRaw(t, k, v)) == if k in Keys(t) then Keys(t) else Keys(t) + [k]
  {
    if |t| == 0 {
    } else {
      KeysCons(t[0], t[1..]);
      assert t == [t[0]] + t[1..];
      if t[0].key == k {
        KeysCons(Entry(k, v), t[1..]);
      } else {
        SetRawKeys(t[1..], k, v);
        KeysCons(t[0], SetRaw(t[1..], k, v));
      }
    }
  }

  lemma {:induction false} SetRawGet(t: seq<Entry>, k: string, v: string)
    ensures Get(SetRaw(t, k, v), k) == Some(v)
    ensures forall j :: j != k ==> Get(SetRaw(t, k, v), j) == Get(t, j)
  {
    if |t| == 0 {
    } else {
      assert t == [t[0]] + t[1..];
      if t[0].key == k {
        forall j | true
          ensures Get(SetRaw(t, k, v), j) == if j == k then Some(v) else Get(t, j)
        {
          GetCons(Entry(k, v), t[1..], j);
          GetCons(t[0], t[1..], j);
        }
      } else {
        SetRawGet(t[1..], k, v);
        forall j | true
          ensures Get(SetRaw(t, k, v), j) == if j == k then Some(v) else Get(t, j)
        {
          GetCons(t[0], SetRaw(t[1..], k, v), j);
          GetCons(t[0], t[1..], j);
        }
      }
    }
  }

  /** Assigns every entry of `src` into `t`, one by one in `src`'s order. */
  function SetAll(t: seq<Entry>, src: seq<Entry>): (r: seq<Entry>)
    ensures Keys(r) == Keys(t) + Fresh(Keys(t), Keys(src))
    ensures |Keys(t)| <= |Keys(r)| && Keys(r)[..|t|] == Keys(t)
    ensures forall k :: k in Keys(r) <==> k in Keys(t) || k in Keys(src)
    ensures Distinct(src) ==> forall k :: Get(r, k) == if k in Keys(src) then Get(src, k) else Get(t, k)
    ensures Distinct(t) ==> Distinct(r)
  {
    SetAllRawKeys(t, src);
    SetAllRawOrder(t, src);
    if Distinct(src) then SetAllRawGet(t, src); SetAllRaw(t, src) else SetAllRaw(t, src)
  }

  function SetAllRaw(t: seq<Entry>, src: seq<Entry>): seq<Entry>
    decreases |src|
  {
    if |src| == 0 then t else SetAllRaw(Set(t, src[0].key, src[0].value), src[1..])
  }

  lemma SetAllRawKeys(t: seq<Entry>, src: seq<Entry>)
    ensures |Keys(t)| <= |Keys(SetAllRaw(t, src))| && Keys(SetAllRaw(t, src))[..|t|] == Keys(t)
    ensures forall k :: k in Keys(SetAllRaw(t, src)) <==> k in Keys(t) || k in Keys(src)
    ensures Distinct(t) ==> Distinct(SetAllRaw(t, src))
  {
    SetAllRawPrefix(t, src);
    SetAllRawMembers(t, src);
    if Distinct(t) {
      SetAllRawDistinct(t, src);
    }
  }

  /** The keys of `ks` that are not in `seen`, each once, in the order they first occur. */
  function Fresh(seen: seq<string>, ks: seq<string>): (r: seq<string>)
    decreases |ks|
  {
    if |ks| == 0 then []
    else if ks[0] in seen then Fresh(seen, ks[1..])
    else [ks[0]] + Fresh(seen + [ks[0]], ks[1..])
  }

  /** The new keys of `a + b`: those of `a`, then those of `b` not already added. */
  lemma {:induction false} FreshAppend(seen: seq<string>, a: seq<string>, b: seq<string>)
    ensures Fresh(seen, a + b) == Fresh(seen, a) + Fresh(seen + Fresh(seen, a), b)
    decreases |a|
  {
    if |a| == 0 {
      assert a + b == b;
      assert seen + [] == seen;
    } else {
      assert (a + b)[0] == a[0];
      assert (a + b)[1..] == a[1..] + b;
      if a[0] in seen {
        FreshAppend(seen, a[1..], b);
      } else {
        var seen1 := seen + [a[0]];
        FreshAppend(seen1, a[1..], b);
        assert seen + Fresh(seen, a) == seen1 + Fresh(seen1, a[1..]);
      }
    }
  }

  /** Assigning `src` appends its new keys at the end, in the order `src` lists them. */
  lemma {:induction false} SetAllRawOrder(t: seq<Entry>, src: seq<Entry>)
    ensures Keys(SetAllRaw(t, src)) == Keys(t) + Fresh(Keys(t), Keys(src))
    decreases |src|
  {
    if |src| == 0 {
      assert Keys(t) + [] == Keys(t);
    } else {
      var k := src[0].key;
      var t1 := Set(t, k, src[0].value);
      assert SetAllRaw(t1, src[1..]) == SetAllRaw(t, src);
      SetAllRawOrder(t1, src[1..]);
      KeysCons(src[0], src[1..]);
      assert src == [src[0]] + src[1..];
      FreshStep(Keys(t), k, Keys(t1), Keys(src[1..]));
    }
  }

  /** One assignment, seen on the keys: a present key changes nothing, a new one is appended. */
  lemma FreshStep(kt: seq<string>, k: string, kt1: seq<string>, rest: seq<string>)
    requires kt1 == if k in kt then kt else kt + [k]
    ensures kt1 + Fresh(kt1, rest) == kt + Fresh(kt, [k] + rest)
  {
    assert ([k] + rest)[0] == k && ([k] + rest)[1..] == rest;
  }

  lemma {:induction false} SetAllRawPrefix(t: seq<Entry>, src: seq<Entry>)
    ensures |t| <= |SetAllRaw(t, src)| && Keys(SetAllRaw(t, src))[..|t|] == Keys(t)
    decreases |src|
  {
    if |src| != 0 {
      var t1 := Set(t, src[0].key, src[0].value);
      var r := SetAllRaw(t1, src[1..]);
      assert r == SetAllRaw(t, src);
      SetAllRawPrefix(t1, src[1..]);
      assert Keys(t1)[..|t|] == Keys(t);
      assert Keys(r)[..|t|] == Keys(r)[..|t1|][..|t|];
    }
  }

  lemma {:induction false} SetAllRawMembers(t: seq<Entry>, src: seq<Entry>)
    ensures forall k :: k in Keys(SetAllRaw(t, src)) <==> k in Keys(t) || k in Keys(src)
    decreases |src|
  {
    if |src| != 0 {
      var t1 := Set(t, src[0].key, src[0].value);
      assert SetAllRaw(t1, src[1..]) == SetAllRaw(t, src);
      SetAllRawMembers(t1, src[1..]);
      assert Keys(src) == [src[0].key] + Keys(src[1..]);
    }
  }

  lemma {:induction false} SetAllRawDistinct(t: seq<Entry>, src: seq<Entry>)
    requires Distinct(t)
    ensures Distinct(SetAllRaw(t, src))
    decreases |src|
  {
    if |src| != 0 {
      var t1 := Set(t, src[0].key, src[0].value);
      assert SetAllRaw(t1, src[1..]) == SetAllRaw(t, src);
      SetAllRawDistinct(t1, src[1..]);
    }
  }

  lemma DistinctTail(src: seq<Entry>)
    requires |src| > 0 && Distinct(src)
    ensures Distinct(src[1..])
    ensures src[0].key !in Keys(src[1..])
  {
    assert Keys(src) == [src[0].key] + Keys(src[1..]);
    assert Keys(src[1..]) == Keys(src)[1..];
  }

  /** In a table, `Get` finds the entry at its index. */
  lemma {:induction false} GetAt(t: seq<Entry>, i: int)
    requires Distinct(t) && 0 <= i < |t|
    ensures Get(t, t[i].key) == Some(t[i].value)
  {
    if i > 0 {
      DistinctTail(t);
      assert t[1..][i - 1] == t[i];
      GetAt(t[1..], i - 1);
      assert Keys(t)[0] != Keys(t)[i];
    }
  }

  lemma {:induction false} SetAllRawGet(t: seq<Entry>, src: seq<Entry>)
    requires Distinct(src)
    ensures forall k :: Get(SetAllRaw(t, src), k) == if k in Keys(src) then Get(src, k) else Get(t, k)
    decreases |src|
  {
    if |src| != 0 {
      var t1 := Set(t, src[0].key, src[0].value);
      assert SetAllRaw(t, src) == SetAllRaw(t1, src[1..]);
      DistinctTail(src);
      SetAllRawGet(t1, src[1..]);
      assert Keys(src) == [src[0].key] + Keys(src[1..]);
    }
  }

  /** `SetAll` never drops or reorders a key already present: the table only grows at its end. */
  lemma {:induction false} SetAllKeepsEarlierKeys(t: seq<Entry>, src: seq<Entry>, i: int)
    requires 0 <= i < |t|
    ensures i < |SetAll(t, src)| && SetAll(t, src)[i].key == t[i].key
  {
    var r := SetAll(t, src);
    assert Keys(r)[..|t|] == Keys(t);
    assert Keys(r)[i] == Keys(r)[..|t|][i];
  }
}

=== FILE: strings.dfy ===
/** Small string utilities shared by the file-name, lookup and output modules. */
module Strings {
  import opened Wrappers

  predicate StartsWith(s: string, p: string) {
    |p| <= |s| && s[..|p|] == p
  }

  predicate EndsWith(s: string, p: string) {
    |p| <= |s| && s[|s| - |p|..] == p
  }

  /** The position of the first `c` in `s`, as `String.prototype.indexOf` finds it. */
  function IndexOf(s: string, c: char): (r: Option<nat>)
    ensures r.None? <==> c !in s
    ensures r.Some? ==> r.value < |s| && s[r.value] == c && c !in s[..r.value]
  {
    if |s| == 0 then None
    else if s[0] == c then Some(0)
    else
      match IndexOf(s[1..], c)
      case None => None
      case Some(i) =>
        assert s[..i + 1] == [s[0]] + s[1..][..i];
        Some(i + 1)
  }

  /** Joins non-empty `segs` with `sep` between neighbours. */
  function Join(segs: seq<string>, sep: char): string
    requires |segs| >= 1
  {
    if |segs| == 1 then segs[0] else segs[0] + [sep] + Join(segs[1..], sep)
  }

  /** `s.split(sep)`: the pieces between separators, empty ones included. */
  function Split(s: string, sep: char): (segs: seq<string>)
    ensures |segs| >= 1
    ensures forall i :: 0 <= i < |segs| ==> sep !in segs[i]
    ensures |segs| == 1 <==> sep !in s
    decreases |s|
  {
    match IndexOf(s, sep)
    case None => [s]
    case Some(i) => [s[..i]] + Split(s[i + 1..], sep)
  }

  lemma SplitAt(s: string, sep: char, i: nat)
    requires IndexOf(s, sep) == Some(i)
    ensures Split(s, sep) == [s[..i]] + Split(s[i + 1..], sep)
  {
  }

  lemma JoinCons(a: string, tail: seq<string>, sep: char)
    requires |tail| >= 1
    ensures Join([a] + tail, sep) == a + [sep] + Join(tail, sep)
  {
    assert ([a] + tail)[1..] == tail;
  }

  /** Joining the pieces of a split gives back the string. */
  lemma {:induction false} JoinSplit(s: string, sep: char)
    ensures Join(Split(s, sep), sep) == s
    decreases |s|
  {
    var r := IndexOf(s, sep);
    if r.Some? {
      var i := r.value;
      JoinSplit(s[i + 1..], sep);
      JoinSplitStep(s, sep, i);
    }
  }

  lemma JoinSplitStep(s: string, sep: char, i: nat)
    requires IndexOf(s, sep) == Some(i)
    requires Join(Split(s[i + 1..], sep), sep) == s[i + 1..]
    ensures Join(Split(s, sep), sep) == s
  {
    var tail := Split(s[i + 1..], sep);
    SplitAt(s, sep, i);
    JoinCons(s[..i], tail, sep);
    Around(s, i);
  }

  lemma Around(s: string, i: nat)
    requires i < |s|
    ensures s == s[..i] + [s[i]] + s[i + 1..]
  {
  }

  lemma IndexOfFirst(a: string, sep: char, b: string)
    requires sep !in a
    ensures IndexOf(a + [sep] + b, sep) == Some(|a|)
  {
    var s := a + [sep] + b;
    var r := IndexOf(s, sep);
    assert s[|a|] == sep;
    assert s[..|a|] == a;
  }

  /** Splitting a join of separator-free pieces gives back the pieces. */
  lemma {:induction false} SplitJoin(segs: seq<string>, sep: char)
    requires |segs| >= 1
    requires forall i :: 0 <= i < |segs| ==> sep !in segs[i]
    ensures Split(Join(segs, sep), sep) == segs
    decreases |segs|
  {
    if |segs| > 1 {
      SplitJoin(segs[1..], sep);
      SplitJoinStep(segs[0], segs[1..], sep);
      assert segs == [segs[0]] + segs[1..];
    }
  }

  lemma SplitJoinStep(a: string, tail: seq<string>, sep: char)
    requires |tail| >= 1 && sep !in a
    requires Split(Join(tail, sep), sep) == tail
    ensures Split(Join([a] + tail, sep), sep) == [a] + tail
  {
    var rest := Join(tail, sep);
    var s := a + [sep] + rest;
    JoinCons(a, tail, sep);
    IndexOfFirst(a, sep, rest);
    SplitAt(s, sep, |a|);
    assert s[..|a|] == a;
    assert s[|a| + 1..] == rest;
  }

  lemma PrefixParts(p: string, s: string)
    ensures StartsWith(p + s, p)
    ensures (p + s)[|p|..] == s
  {
    assert (p + s)[..|p|] == p;
  }

  lemma StartsWithContains(s: string, p: string, c: char)
    ensures StartsWith(s, p) && c in p ==> c in s
  {
    if StartsWith(s, p) && c in p {
      var i :| 0 <= i < |p| && p[i] == c;
      assert s[..|p|][i] == c;
    }
  }
}

=== FILE: wrappers.dfy ===
/** Optional values and results shared by the modules of the language build model. */
module Wrappers {

  /** A value that may be absent: a missing file, a key that is not there. */
  datatype Option<+T> = None | Some(value: T)

  /** The outcome of an operation that can throw in the modelled code. */
  datatype Result<+T, +E> = Success(value: T) | Failure(error: E)

  /** Looks `k` up in `m`, `None` when it is not a key. */
  function Find<K, V>(m: map<K, V>, k: K): (r: Option<V>)
    ensures r.Some? <==> k in m
    ensures r.Some? ==> r.value == m[k]
  {
    if k in m then Some(m[k]) else None
  }
}
